=== FILE: README.md ===
# License-key system: a verified model

This project models in Dafny the logic of a software-license system.

- The HTTP service issues keys of the form `XXXX-XXXX-XXXX-XXXX`, stores them with a plan type, an optional email and an active flag, and verifies them as `valid`, `expired`, `disabled` or `not_found`.
- A sliding-window rate limiter admits or refuses each client address (defined in `utils/security.py`; see "Left out" for where it is installed).
- Input sanitisers delete dangerous characters.
- Two middleware classes extract the client address, add security headers and reject oversized or non-JSON bodies. `main.py` does not install them.
- Error handlers build uniform JSON error bodies.
- A desktop administration tool has its own key generator, table, verifier, license list and statistics.

Layout, one module per file:

| file | module | models |
|---|---|---|
| `common.dfy` | `Common` | `Option`, `Result`, `Max`, `Min` |
| `text.dfy` | `Text` | Python string operations: `split`, `join`, `strip` (the full `str.isspace` set), slicing, `replace` of a character, `startswith`, `int()` |
| `key_layout.dfy` | `KeyLayout` | the four-groups-of-four layout over any symbol class, and its equivalence with the split-based check |
| `license_generator.dfy` | `LicenseGenerator` | `utils/license_generator.py` |
| `models.dfy` | `Models` | `database/models.py` |
| `validators.dfy` | `Validators` | `utils/validators.py` |
| `security.dfy` | `Security` | `RateLimiter` and `InputSanitizer` of `utils/security.py` |
| `http.dfy` | `Http` | JSON values, insertion-ordered Python dictionaries, `JSONResponse` |
| `error_handlers.dfy` | `ErrorHandlers` | `utils/error_handlers.py` |
| `middleware.dfy` | `Middleware` | `middleware/security_middleware.py` |
| `license_service.dfy` | `LicenseService` | the verify and generate endpoints of `main.py` |
| `desktop.dfy` | `Desktop` | the license logic of `desktop_app/main.py` |

Modelling conventions:

- **Time** is an integer number of seconds supplied by the caller. One day is 86400.
- **Randomness** (`secrets.choice`) is a nondeterministic choice of some alphabet symbol.
- **The database** is a map from license key to row. The key column is unique in both schemas.
- **Classes.** `RateLimiter`, `LicenseStore` (the service's table) and `LicenseManager` (the desktop table) are classes whose methods update their fields.
- **Header names** are lower-case map keys, because the framework looks headers up case-insensitively.

Three behaviours of the code worth noting:

- **Verify endpoint validator.** The endpoint checks keys with the regular-expression validator of `utils/validators.py`, not the 32-symbol codec. It therefore looks up keys containing `0`, `1`, `I` or `O`, and keys with one trailing newline (`Validators.RegexAdmitsLookAlikes`, `Validators.RegexAdmitsTrailingNewline`).
- **No retry on collision.** `generate_license` draws one key and does not retry. A key already in the table makes the insert fail, and the request ends in a 500 (`LicenseService.LicenseStore.GenerateLicense`).
- **Strict expiry.** A license is expired only when `now > end_date`. It is still valid at its end date.

## Model

| member | source | states |
|---|---|---|
| `LicenseGenerator.AlphabetFacts` | utils/license_generator.py:19-20 | the alphabet has 32 symbols and contains none of `I`, `O`, `0`, `1`, `-`; every symbol is an upper-case letter other than I/O or a digit 2-9 |
| `LicenseGenerator.AlphabetExact` | utils/license_generator.py:19-20 | the alphabet is exactly the letters other than I/O plus the digits 2-9, each listed once (pairwise distinct) |
| `LicenseGenerator.ValidateIffShape` | utils/license_generator.py:50-75 | the split-based validator accepts a string iff it is 19 characters with `-` at 4, 9 and 14 and alphabet symbols elsewhere |
| `LicenseGenerator.AcceptedLayout` | utils/license_generator.py:64-75 | every accepted string has length 19 and has `-` exactly at indices 4, 9 and 14 (hence exactly three hyphens) |
| `LicenseGenerator.GenerateLicenseKey` | utils/license_generator.py:9-28 | every generated key has the layout and is accepted by the validator (round trip) |
| `LicenseGenerator.GenerateBatchLicenseKeys` | utils/license_generator.py:31-47 | the result is the set of keys drawn so far; it never exceeds `count`; it stops short only when the draws run out; it reaches `count` whenever the draws hold that many distinct keys; every key is valid |
| `LicenseGenerator.Log2OfPower` | utils/license_generator.py:88 | `int(log2(2^k)) == k` |
| `LicenseGenerator.Pow32` | utils/license_generator.py:85-88 | `32^n == 2^(5n)` |
| `LicenseGenerator.LicenseKeyEntropy` | utils/license_generator.py:78-88 | the entropy is 80 bits, with `2^bits` equal to the number of keys `32^16` |
| `KeyLayout.JoinedGroupsLayout` | utils/license_generator.py:23-28 | four groups of four symbols joined by `-` have the key layout |
| `KeyLayout.LayoutGroups` | utils/license_generator.py:64-75 | a string with the layout splits on `-` into four groups of four symbols |
| `KeyLayout.SplitsIffLayout` | utils/license_generator.py:64-75 | splitting into four four-symbol groups is equivalent to the layout, for any class without `-` |
| `KeyLayout.LayoutWiden` | utils/validators.py:23 | a layout over a class is a layout over any larger class |
| `Text.Split` | utils/license_generator.py:64 | `str.split(sep)`: at least one part, no part contains the separator, the first part is the text before the first separator |
| `Text.JoinSplit` | utils/license_generator.py:64 | joining the parts of a split gives back the string |
| `Text.SplitJoin` | utils/license_generator.py:28 | splitting a join of separator-free parts gives back the parts |
| `Text.Strip` | utils/validators.py:62 | `str.strip()`: never longer, and neither end of the result is whitespace |
| `Text.StripTrimsSpace` | utils/validators.py:62 | the stripped string is a slice of the input with only whitespace before it and after it |
| `Text.StripUnpadded` | utils/validators.py:62 | a string without whitespace at either end strips to itself |
| `Text.StripInside` | utils/validators.py:62 | every character of the stripped text was in the text |
| `Text.Prefix` | utils/validators.py:65-66 | `s[:n]`: a prefix of `s`, of length `min(n, len)` for `n >= 0` and `max(0, len + n)` for negative `n` |
| `Text.Without` | utils/validators.py:70-71 | never longer; every character of the result is outside the set and in the input; every character outside the set occurs in the result |
| `Text.WithoutCount` | utils/validators.py:70-71 | deleting keeps every copy of a character outside the set and no copy of one inside it |
| `Text.WithoutStep` | utils/validators.py:70-71 | one more `replace(c, '')` is deleting one more character |
| `Text.WithoutIsSubsequence` | utils/validators.py:70-71 | deletion leaves a subsequence of the input |
| `Text.ParseInt` | middleware/security_middleware.py:92 | `int()` of a header value succeeds exactly when the stripped text is an optional sign followed by at least one digit, and its value is the digits' value, negated after `-` |
| `Text.ParseIntDigits` | middleware/security_middleware.py:92 | a bare run of digits parses to its value |
| `Text.ParseIntSigned` | middleware/security_middleware.py:92 | a run of digits after `+` or `-` parses to its value with that sign |
| `Models.PlanFromCode` | database/models.py:10-17 | `PlanType(code)` gives the plan with that value, or fails when no plan has it |
| `Models.PlanCodeBijection` | database/models.py:10-17 | six plans, pairwise distinct, and plan and code determine each other |
| `Models.StatusCodesDistinct` | database/models.py:20-25 | four statuses with pairwise distinct values |
| `Models.NewLicense` | database/models.py:28-35 | a new record is active and has no email, start or end date |
| `Models.ApplyUpdate` | database/models.py:43-46 | an update can change only the email and the active flag; absent fields are kept (the schema declares the update but no code applies it, so keeping an absent field is the model's reading of its `None` defaults) |
| `Models.StatusResponse` | database/models.py:64-70 | a verify response with only status and message set |
| `Validators.UpperAlnumFacts` | utils/validators.py:23 | `[A-Z0-9]` is exactly the upper-case letters and the digits, without `-` |
| `Validators.RejectsEmpty` | utils/validators.py:19-20 | the regex validator rejects the empty string |
| `Validators.CodecImpliesRegex` | utils/validators.py:9-24 | every key the codec accepts, the regex accepts |
| `Validators.RegexAdmitsLookAlikes` | utils/validators.py:23-24 | `0000-0000-0000-0000` passes the regex and fails the codec |
| `Validators.RegexAdmitsTrailingNewline` | utils/validators.py:23-24 | a valid key plus a newline passes the regex (`$` allows it) and fails the codec |
| `Validators.KeyCharIff` | utils/validators.py:23 | the codec alphabet is `[A-Z0-9]` without `0`, `1`, `I`, `O` |
| `Validators.CodecIffRegexWithoutLookAlikes` | utils/validators.py:9-24 | codec accepts iff regex accepts, the length is 19 and no look-alike character occurs (both directions) |
| `Validators.TruncatedBound` | utils/validators.py:64-66 | the cut text is a prefix, never longer, at most `max_length` when that is not negative |
| `Validators.Sanitized` | utils/validators.py:47-73 | empty input gives `""`; the result is at most `max_length` long, holds no dangerous character, and is a subsequence of the stripped, cut text that keeps every copy of every other character |
| `Validators.Sanitize` | utils/validators.py:58-73 | the strip, cut and per-character `replace` loop computes `Sanitized` |
| `Validators.SanitizeInput` | utils/validators.py:47-73 | `sanitize_input` is `Sanitized` over its 11 characters |
| `Validators.ValidatePlanTypeIffPlanCode` | utils/validators.py:76-87 | a code is accepted iff it is the value of some plan (both directions) |
| `Security.Pruned` | utils/security.py:140-143 | the filtered list is never longer |
| `Security.PrunedMembers` | utils/security.py:140-143 | every timestamp the filter keeps was in the list and is after the window start, and every timestamp after the window start is kept |
| `Security.PrunedCount` | utils/security.py:140-143 | the filter keeps every copy of a timestamp after the window start and no copy of any other, so the count the limiter compares is the number of requests in the window |
| `Security.PrunedTwice` | utils/security.py:136-143 | pruning at a start and then at a later start is pruning at the later start |
| `Security.PrunedKeepsAll` | utils/security.py:140-143 | a list wholly inside the window is kept |
| `Security.PrunedDropsAll` | utils/security.py:140-143 | a list wholly at or before the window start is emptied |
| `Security.Recent` | utils/security.py:139-145 | an address's stored timestamps in the window, all after the start; none for an unseen address |
| `Security.RefusalLeavesNoTrace` | utils/security.py:139-149 | the list a refused request leaves prunes, at any later time, to what the old list prunes to |
| `Security.RateLimiter.constructor` | utils/security.py:113-123 | the given limits, an empty request map |
| `Security.RateLimiter.IsAllowed` | utils/security.py:125-153 | admitted iff fewer than `max_requests` timestamps remain in the window; the address's list becomes the pruned list, plus `now` when admitted; other addresses untouched; the per-address bound is kept |
| `Security.RateLimiter.GetRemainingRequests` | utils/security.py:155-175 | `max_requests` for an unseen address, else `max(0, max - pruned count)`; positive iff the next request would be admitted |
| `Security.LimitExample` | utils/security.py:125-153 | limit 3 in 10 s: three requests at `t` pass, a fourth at `t+5` is refused |
| `Security.BoundaryExample` | utils/security.py:136-148 | three stored at `t`, window 10: refused at `t+9`, admitted at `t+10` (timestamps equal to the window start are dropped) |
| `Security.DefaultLimiterRemaining` | utils/security.py:245 | the module-level limiter (100 requests per 3600 seconds) starts with 100 requests left for every address |
| `Security.SanitizeString` | utils/security.py:181-208 | `sanitize_string` is `Sanitized` over its 13 characters |
| `Security.SanitizeStringAfterInput` | utils/security.py:204 | `sanitize_string` equals `sanitize_input` followed by deleting `\` and `/` |
| `Security.LengthCheckRedundant` | utils/security.py:221-240 | the explicit 19-character check changes nothing: the split rule alone decides |
| `Security.SameLanguageAsCodec` | utils/security.py:210-240 | this validator and the codec's accept the same strings |
| `Http.Keys` | utils/error_handlers.py:72-82 | the keys of a dictionary, in insertion order |
| `Http.Lookup` | utils/error_handlers.py:72-82 | `d.get(k)` is absent iff `k` is not a key, else a bound value |
| `Http.Set` | utils/error_handlers.py:78-79 | assigning keeps an existing key's place and appends a new key |
| `Http.SetLookup` | utils/error_handlers.py:78-79 | after `d[k] = v`, `k` maps to `v` and other keys are unchanged |
| `Http.SetIsDict` | utils/error_handlers.py:78-79 | assignment keeps the keys distinct |
| `Http.Update` | utils/error_handlers.py:81-82 | `update` keeps the existing keys as a prefix, in order |
| `Http.UpdateIsDict` | utils/error_handlers.py:81-82 | `update` keeps the keys distinct |
| `Http.UpdateLookup` | utils/error_handlers.py:81-82 | after `update`, keys of the argument take its values and the others keep theirs |
| `ErrorHandlers.BaseBodyShape` | utils/error_handlers.py:72-79 | the base body has distinct keys starting `error`, `message`, `status_code` |
| `ErrorHandlers.BaseBodyLookup` | utils/error_handlers.py:72-79 | the base body holds `true`, the message, the status, and `error_code` only for a truthy code |
| `ErrorHandlers.CreateErrorResponse` | utils/error_handlers.py:54-87 | the given status; the body starts with `error`, `message`, `status_code` and its keys are distinct |
| `ErrorHandlers.ErrorBodyLookup` | utils/error_handlers.py:72-87 | each body key comes from the additional data if there, else from the base body |
| `ErrorHandlers.ErrorCodePresent` | utils/error_handlers.py:72-87 | without additional data, `error_code` is present iff the code is truthy; the other three fields hold their values |
| `ErrorHandlers.HttpExceptionHandler` | utils/error_handlers.py:90-99 | the exception's own status; its detail as message unless the additional data overrides `message` |
| `ErrorHandlers.ValidationExceptionHandler` | utils/error_handlers.py:102-111 | 422 with `VALIDATION_ERROR`, the fixed message and the errors under `validation_errors` |
| `ErrorHandlers.GeneralExceptionHandler` | utils/error_handlers.py:114-123 | 500 with `INTERNAL_SERVER_ERROR` and the fixed message |
| `ErrorHandlers.LicenseSystemErrorHandler` | utils/error_handlers.py:126-134 | 400 with the error's message, and its code iff truthy, for every subclass |
| `ErrorHandlers.HandleDatabaseError` | utils/error_handlers.py:137-146 | a `DatabaseError` without code whose message is the fixed prefix followed by the operation |
| `ErrorHandlers.FieldMessage` | utils/error_handlers.py:157-158 | the message ends with the original; with a truthy field it is exactly the field prefix `字段 '<field>' ` followed by the message, otherwise it is the message unchanged |
| `ErrorHandlers.HandleValidationError` | utils/error_handlers.py:149-161 | a `ValidationError` with `VALIDATION_ERROR` and the field-prefixed message |
| `ErrorHandlers.HandleSecurityError` | utils/error_handlers.py:164-172 | a `SecurityError` with `SECURITY_ERROR` and the message unchanged |
| `ErrorHandlers.RaisedValidationErrorIs400` | utils/error_handlers.py:126-161 | the license-system handler turns a raised validation error into a 400 with `VALIDATION_ERROR`, not the 422 of request validation |
| `ErrorHandlers.RaisedDatabaseErrorIs400` | utils/error_handlers.py:126-146 | the license-system handler turns a raised database error into a 400 with the operation in the message and no `error_code` |
| `Middleware.Header` | middleware/security_middleware.py:70 | `headers.get(name, default)` |
| `Middleware.GetClientIp` | middleware/security_middleware.py:67-82 | first comma-separated entry of a non-empty `X-Forwarded-For`, stripped and free of commas; else a non-empty `X-Real-IP`; else the client host; else `unknown` |
| `Middleware.WithSecurityHeaders` | middleware/security_middleware.py:53-56 | the four security headers are set to their values; all other headers are kept |
| `Middleware.SecurityMiddleware.constructor` | middleware/security_middleware.py:19-22 | the shared limiter and the configured limits |
| `Middleware.SecurityMiddleware.Dispatch` | middleware/security_middleware.py:24-65 | the application is called iff the limiter admits the client address; a refusal gives 429 with the retry-after window; the application's response gets the security headers; an application failure gives 500; the limiter state is as `IsAllowed` leaves it |
| `Middleware.InputValidation` | middleware/security_middleware.py:88-107 | rejections are 413 or 415; a `ValueError` arises exactly when a `Content-Length` is present and `int()` fails on it |
| `Middleware.TooLargeIff` | middleware/security_middleware.py:91-96 | 413 iff the declared length parses and exceeds 1 MiB, whatever the method |
| `Middleware.UnsupportedIff` | middleware/security_middleware.py:98-105 | 415 iff the size check passed, the method is POST/PUT/PATCH and the content type does not start with `application/json` |
| `LicenseService.PlanDays` | main.py:51-58 | no days for lifetime; 1 to 365 days otherwise |
| `LicenseService.EndDateFor` | main.py:184-188 | no end date iff lifetime; otherwise `now` plus the plan's days, between one day and 365 days ahead |
| `LicenseService.VerifyLicense` | main.py:95-159 | `not_found` iff bad format or absent key; `disabled` iff found and inactive; `expired` iff found, active and past the end date of a non-lifetime plan; a bad format gives the format message; `valid` carries the row's plan, end date and email |
| `LicenseService.VerifyIgnoresOtherRows` | main.py:115-121 | the verdict for a key does not depend on rows of other keys |
| `LicenseService.DisabledWinsOverExpiry` | main.py:131-138 | a license disabled by an update is `disabled` at any time, even if expired |
| `LicenseService.IssuedRow` | main.py:199-210 | the inserted row is active, with the request's plan and email, start `now` and the computed end date |
| `LicenseService.IssuedThenVerified` | main.py:95-227 | a freshly issued key is `valid` (with its plan, end date and email) iff lifetime or not past its end date, `expired` otherwise |
| `LicenseService.GeneratedMessage` | main.py:219 | the success message is the fixed prefix `成功生成`, the plan code, then the fixed suffix `授权码` |
| `LicenseService.LicenseStore.constructor` | database/connection.py:66-75 | an empty table |
| `LicenseService.LicenseStore.GenerateLicense` | main.py:169-227 | the drawn key is codec-valid; the call fails exactly when that key is already in the table, and then gives 500 `生成授权码失败` with the table unchanged; otherwise exactly that key's row is added and the response echoes key, plan, end date, email and the message; rows stay filed under their own keys |
| `Desktop.GenerateLicenseKey` | desktop_app/main.py:59-66 | a desktop key has the layout over `[A-Z0-9]` and passes the service's regex validator |
| `Desktop.DesktopKeyCodecIff` | desktop_app/main.py:62-66 | a desktop key passes the 32-symbol codec iff it has no `0`, `1`, `I`, `O` |
| `Desktop.DesktopKeysOutsideCodec` | desktop_app/main.py:62-66 | some key of the desktop layout fails the codec |
| `Desktop.DesktopDays` | desktop_app/main.py:74-83 | the service's days for a known non-lifetime plan; 30 for an unknown code |
| `Desktop.DesktopEndDate` | desktop_app/main.py:72-84 | no end date iff the plan is `"lifetime"`, else `now` plus its days |
| `Desktop.EndDatesAgree` | desktop_app/main.py:72-84 | for the six plans the desktop end date equals the service's |
| `Desktop.DesktopVerifyLicense` | desktop_app/main.py:105-150 | `invalid` iff absent (no format check); `disabled` iff inactive; `expired` iff active, not lifetime and past its end date, carrying that date; `valid` carries plan, end date and email |
| `Desktop.VerdictMessagesDistinct` | desktop_app/main.py:120-150 | two verify outcomes carry the same message exactly when they carry the same status |
| `Desktop.VerdictMessagesMatchService` | desktop_app/main.py:120-150 | the desktop's messages for a missing, disabled and expired key are the service's; its success message differs |
| `Desktop.CreatedRow` | desktop_app/main.py:86-92 | the inserted row is active, with the email, plan and computed end date |
| `Desktop.CreatedThenVerified` | desktop_app/main.py:68-150 | a freshly created license is `valid` iff lifetime or not past its end date, `expired` otherwise |
| `Desktop.LicenseManager.constructor` | desktop_app/main.py:28-58 | an empty table |
| `Desktop.LicenseManager.CreateLicense` | desktop_app/main.py:68-103 | the drawn key has the desktop layout; the call fails exactly when that key is already in the table, and then leaves the table unchanged; otherwise exactly that key's row is added and the returned fields echo it; only lifetime rows lack an end date |
| `Desktop.DesktopOf` | desktop_app/main.py:36-50 | a service row in the desktop table's shape, plan as its code |
| `Desktop.DesktopSpelling` | desktop_app/main.py:119-120 | the desktop spells `not_found` as `invalid` and the other statuses as the service does |
| `Desktop.DesktopAgreesWithServer` | desktop_app/main.py:105-150 | on a well-formed key, desktop and service reach the same status on the same data, up to that spelling |
| `Desktop.DesktopSkipsFormatCheck` | desktop_app/main.py:105-120 | a stored key of bad format is `not_found` at the service but not `invalid` at the desktop |
| `Desktop.ListStatus` | desktop_app/main.py:531-535 | `禁用` iff inactive; `过期` iff active and past its end date; `有效` otherwise |
| `Desktop.ListStatusAgreesWithVerify` | desktop_app/main.py:531-535 | when only lifetime rows lack an end date, the list status matches the verdict of `verify_license` |
| `Desktop.ListStatusIgnoresLifetime` | desktop_app/main.py:531-535 | a lifetime row with a past end date is listed `过期` yet verifies `valid` |
| `Desktop.PlanName` | desktop_app/main.py:516-523 | an unknown plan code is shown as itself; a known one under a name different from its code |
| `Desktop.PlanNamesDistinct` | desktop_app/main.py:516-523 | different plans are shown under different names |
| `Desktop.RefreshLicenseList` | desktop_app/main.py:506-547 | one line per license, in order, each with key, email or `''`, plan name, list status and end date |
| `Desktop.CountActive` | desktop_app/main.py:574 | the active count never exceeds the number of licenses |
| `Desktop.UpdateStats` | desktop_app/main.py:572-575 | the total is the number of licenses |
| `Desktop.StatsOrdered` | desktop_app/main.py:573-575 | expired ≤ active ≤ total |
| `Desktop.StatsMatchList` | desktop_app/main.py:531-535 | the active count is the number of list lines not `禁用`; the expired count is the number of lines `过期` |

## Left out

- Cryptography in `utils/security.py` (HMAC tokens, PBKDF2 password hashing, `token_urlsafe`): calls into foreign libraries.
- Randomness: keys are nondeterministic choices. Nothing is claimed about uniformity or collision probability.
- LicenseGenerator.GenerateBatchLicenseKeys: the random source is a finite sequence of draws, and the loop also stops when the draws run out. The source loops until `count` distinct keys appear, which need not terminate; that termination is not modelled.
- `validate_email_format`: a wrapper around the `email_validator` library.
- SQL, connection handling and schema set-up in `database/connection.py` and `scripts/setup_database.py`: the table is a map from key to row. Row ids (uuid4) are parameters, and primary-key collisions on them are not modelled. The `CHECK` constraint on plan codes is reflected by the service row holding a `PlanType`.
- Clocks and date formatting: time is integer seconds, and ISO strings are not modelled. One `now` serves a whole request, although `main.py` reads the clock twice in `generate_license`. `created_at` and `updated_at`, and the `created_at` column of the desktop list, are left out.
- Exceptions from the store or the clock inside `verify_license` (turned into a 500) are not modelled. The handlers of `utils/error_handlers.py` are modelled as functions, although `main.py` registers only its own catch-all handler (`main.py:230-237`).
- Installation of the middlewares: `main.py` installs only `CORSMiddleware` (`main.py:39-45`). `SecurityMiddleware`, `InputValidationMiddleware` and the module-level `rate_limiter` (`utils/security.py:245`) are defined but not installed by it. The model describes what they do when an application installs them.
- Asynchronous execution and concurrency: calls are sequential, and the module-level rate limiter is one shared object.
- `LoggingMiddleware`, CORS, static files and logging: they only log or forward.
- Text.ParseInt: `int()` is modelled for surrounding whitespace, a sign and ASCII digits. Underscores between digits and non-ASCII digits, which Python also accepts, are treated as errors.
- Text.Strip: whitespace is the fixed list of code points for which Python's `str.isspace` is true. There is no other Unicode handling.
- Middleware.InputValidation does not state the 413 and 415 bodies in its own contract; `Middleware.TooLargeIff` and `Middleware.UnsupportedIff` state when each status arises.
- Desktop GUI: the widgets, message boxes, JSON export and file dialogs are left out. `get_all_licenses` (ordering by `created_at`) is not modelled, and its result is a parameter of `Desktop.RefreshLicenseList` and `Desktop.UpdateStats`.
- Desktop.LicenseManager.CreateLicense: a raised insert error is `None`. The exception text is not modelled.
- The network clients, the live API test script and the packaging and start-up scripts are left out.

=== FILE: common.dfy ===
/** Small value wrappers shared by every module of the model. */
module Common {

  /** Python's `Optional[T]`: `None` or a present value. */
  datatype Option<+T> = None | Some(value: T)

  /** The outcome of an operation that can raise: a value or the error it raised. */
  datatype Result<+T, +E> = Ok(value: T) | Err(error: E)

  function Max(a: int, b: int): int { if a >= b then a else b }

  function Min(a: int, b: int): int { if a <= b then a else b }
}

=== FILE: desktop.dfy ===
/**
 * The license logic of the desktop administration tool,
 * `desktop_app/main.py`: its own key generator over `[A-Z0-9]`, creating and
 * verifying licenses in its local table, the status column of the license
 * list and the counts of the statistics panel. The table is a map from key
 * to row; plans are free strings here, as the desktop table stores them
 * without a check.
 */
module Desktop {
  import opened Common
  import opened Text
  import opened KeyLayout
  import Models
  import LicenseGenerator
  import Validators
  import LicenseService

  /**
   * `LicenseManager.generate_license_key`: four groups of four characters,
   * each picked from `string.ascii_uppercase + string.digits`, joined by `-`.
   * Its keys pass the regex validator of the HTTP service.
   */
  method GenerateLicenseKey() returns (key: string)
    ensures Layout(key, Validators.UpperAlnum)
    ensures Validators.ValidateLicenseKeyFormat(key)
  {
    var chars := Validators.UpperAlnum;
    var keyParts: seq<string> := [];
    for n := 0 to 4
      invariant |keyParts| == n
      invariant forall g | g in keyParts :: IsGroup(g, chars)
    {
      var part: string := "";
      for m := 0 to 4
        invariant |part| == m
        invariant forall c | c in part :: c in chars
      {
        assert chars[0] in chars;
        var c :| c in chars;  // secrets.choice(chars)
        part := part + [c];
      }
      keyParts := keyParts + [part];
    }
    key := Join(keyParts, '-');
    JoinedGroupsLayout(keyParts, chars);
    assert key[..19] == key && key[19..] == "";
  }

  /**
   * A desktop key is accepted by the 32-symbol codec exactly when none of its
   * characters is `0`, `1`, `I` or `O`.
   */
  lemma DesktopKeyCodecIff(key: string)
    requires Layout(key, Validators.UpperAlnum)
    ensures LicenseGenerator.ValidateLicenseKeyFormat(key)
        <==> forall i | 0 <= i < |key| :: !Validators.IsLookAlike(key[i])
  {
    assert key[..19] == key && key[19..] == "";
    assert Validators.ValidateLicenseKeyFormat(key);
    Validators.CodecIffRegexWithoutLookAlikes(key);
  }

  /** So the desktop generator can produce keys the codec refuses. */
  lemma DesktopKeysOutsideCodec()
    ensures exists key :: Layout(key, Validators.UpperAlnum) && !LicenseGenerator.ValidateLicenseKeyFormat(key)
  {
    var zeros := "0000-0000-0000-0000";
    Validators.RegexAdmitsLookAlikes();
    assert zeros[..19] == zeros;
  }

  /** A row of the desktop `licenses` table; `planType` is whatever string was stored. */
  datatype DesktopLicense = DesktopLicense(
    id: string,
    licenseKey: string,
    userEmail: Option<string>,
    planType: string,
    endDate: Option<int>,
    isActive: bool)

  /** `days_map.get(plan_type, 30)`: the server's days for a known plan, 30 for anything else. */
  function DesktopDays(planType: string): (d: nat)
    ensures var p := Models.PlanFromCode(planType);
      p.Some? && p.value != Models.Lifetime ==> d == LicenseService.PlanDays(p.value).value
    ensures Models.PlanFromCode(planType).None? ==> d == 30
  {
    if planType == "trial1" then 1
    else if planType == "trial3" then 3
    else if planType == "30d" then 30
    else if planType == "180d" then 180
    else if planType == "365d" then 365
    else 30
  }

  /** The end date `create_license` stores: none exactly for `"lifetime"`. */
  function DesktopEndDate(planType: string, now: int): (end: Option<int>)
    ensures end.None? <==> planType == "lifetime"
    ensures end.Some? ==> end.value == now + DesktopDays(planType) * LicenseService.DaySeconds
  {
    if planType == "lifetime" then None
    else Some(now + DesktopDays(planType) * LicenseService.DaySeconds)
  }

  /** For the six plans the desktop tool and the HTTP service compute the same end date. */
  lemma EndDatesAgree(p: Models.PlanType, now: int)
    ensures DesktopEndDate(Models.PlanCode(p), now) == LicenseService.EndDateFor(p, now)
  {
    Models.PlanCodeBijection();
  }

  /** The dictionary `create_license` returns (without `created_at`). */
  datatype CreatedLicense = CreatedLicense(licenseKey: string, userEmail: string, planType: string, endDate: Option<int>)

  /** The outcome of `LicenseManager.verify_license`. */
  datatype DesktopVerdict =
    | Invalid
    | DisabledKey
    | ExpiredAt(expiredOn: int)
    | ValidKey(planType: string, endDate: Option<int>, userEmail: Option<string>)

  /** The `status` string of each outcome. */
  function StatusName(v: DesktopVerdict): string
  {
    match v
    case Invalid => "invalid"
    case DisabledKey => "disabled"
    case ExpiredAt(_) => "expired"
    case ValidKey(_, _, _) => "valid"
  }

  /** The `message` string of each outcome. */
  function VerdictMessage(v: DesktopVerdict): string
  {
    match v
    case Invalid => "授权码不存在"
    case DisabledKey => "授权码已被禁用"
    case ExpiredAt(_) => "授权码已过期"
    case ValidKey(_, _, _) => "授权码有效"
  }

  /** Two outcomes carry the same message exactly when they carry the same status. */
  lemma VerdictMessagesDistinct(v: DesktopVerdict, w: DesktopVerdict)
    ensures VerdictMessage(v) == VerdictMessage(w) <==> StatusName(v) == StatusName(w)
  {
  }

  /** The desktop reuses the service's messages for a missing, disabled or expired key, but words success differently. */
  lemma VerdictMessagesMatchService(expiredOn: int, planType: string, endDate: Option<int>, userEmail: Option<string>)
    ensures VerdictMessage(Invalid) == LicenseService.NotFoundMessage
    ensures VerdictMessage(DisabledKey) == LicenseService.DisabledMessage
    ensures VerdictMessage(ExpiredAt(expiredOn)) == LicenseService.ExpiredMessage
    ensures VerdictMessage(ValidKey(planType, endDate, userEmail)) != LicenseService.VerifiedMessage
  {
  }

  /**
   * `LicenseManager.verify_license`: no format check; an absent key is
   * `invalid`, then the active flag, then expiry (not lifetime, an end date,
   * `now` strictly after it), else valid with the row's fields.
   */
  function DesktopVerifyLicense(rows: map<string, DesktopLicense>, key: string, now: int): (v: DesktopVerdict)
    ensures v.Invalid? <==> key !in rows
    ensures v.DisabledKey? <==> key in rows && !rows[key].isActive
    ensures v.ExpiredAt? <==>
              && key in rows && rows[key].isActive && rows[key].planType != "lifetime"
              && rows[key].endDate.Some? && now > rows[key].endDate.value
    ensures v.ExpiredAt? ==> rows[key].endDate == Some(v.expiredOn)
    ensures v.ValidKey? ==>
              v == ValidKey(rows[key].planType, rows[key].endDate, rows[key].userEmail)
  {
    if key !in rows then Invalid
    else
      var row := rows[key];
      if !row.isActive then DisabledKey
      else if row.planType != "lifetime" && row.endDate.Some? && now > row.endDate.value then ExpiredAt(row.endDate.value)
      else ValidKey(row.planType, row.endDate, row.userEmail)
  }

  /** The row `create_license` inserts. */
  function CreatedRow(id: string, key: string, userEmail: string, planType: string, now: int): (l: DesktopLicense)
    ensures l.licenseKey == key && l.isActive && l.planType == planType
    ensures l.userEmail == Some(userEmail) && l.endDate == DesktopEndDate(planType, now)
  {
    DesktopLicense(id, key, Some(userEmail), planType, DesktopEndDate(planType, now), true)
  }

  /** A freshly created license is valid up to and including its end date and expired after; `"lifetime"` never expires. */
  lemma {:induction false} CreatedThenVerified(rows: map<string, DesktopLicense>, id: string, key: string,
                                               userEmail: string, planType: string, createdAt: int, now: int)
    ensures var v := DesktopVerifyLicense(rows[key := CreatedRow(id, key, userEmail, planType, createdAt)], key, now);
      && (v.ValidKey? <==> planType == "lifetime" || now <= createdAt + DesktopDays(planType) * LicenseService.DaySeconds)
      && (v.ExpiredAt? <==> planType != "lifetime" && now > createdAt + DesktopDays(planType) * LicenseService.DaySeconds)
  {
    var row := CreatedRow(id, key, userEmail, planType, createdAt);
    var v := DesktopVerifyLicense(rows[key := row], key, now);
    assert !v.Invalid? && !v.DisabledKey?;
  }

  /** A desktop row holds an end date exactly when its plan is not `"lifetime"`. */
  predicate LifetimeIffNoEnd(l: DesktopLicense)
  {
    l.endDate.None? <==> l.planType == "lifetime"
  }

  /** The local table of `LicenseManager`. */
  class LicenseManager {
    var rows: map<string, DesktopLicense>

    /** Rows are filed under their keys, and only lifetime rows lack an end date. */
    predicate Valid()
      reads this
    {
      forall k | k in rows :: rows[k].licenseKey == k && LifetimeIffNoEnd(rows[k])
    }

    constructor ()
      ensures rows == map[]
      ensures Valid()
    {
      rows := map[];
    }

    /**
     * `create_license`: draw a desktop key, compute the end date, insert an
     * active row. A key already in the table makes the insert raise (the key
     * column is unique): `None`, table unchanged. There is no retry. The drawn
     * key is returned in both outcomes, so that failure can be tied to it.
     */
    method CreateLicense(userEmail: string, planType: string, id: string, now: int)
      returns (key: string, result: Option<CreatedLicense>)
      modifies this
      ensures Layout(key, Validators.UpperAlnum)
      ensures result.None? <==> key in old(rows)
      ensures result.Some? ==>
                && result.value == CreatedLicense(key, userEmail, planType, DesktopEndDate(planType, now))
                && rows == old(rows)[key := CreatedRow(id, key, userEmail, planType, now)]
      ensures result.None? ==> rows == old(rows)
      ensures old(Valid()) ==> Valid()
    {
      key := GenerateLicenseKey();
      var endDate := DesktopEndDate(planType, now);
      if key in rows {
        return key, None;
      }
      rows := rows[key := CreatedRow(id, key, userEmail, planType, now)];
      result := Some(CreatedLicense(key, userEmail, planType, endDate));
    }
  }

  /** The server record as the desktop table would hold it: the plan as its code. */
  function DesktopOf(l: Models.License): (d: DesktopLicense)
    ensures d.planType == Models.PlanCode(l.planType)
    ensures d.licenseKey == l.licenseKey && d.endDate == l.endDate && d.isActive == l.isActive
  {
    DesktopLicense(l.id, l.licenseKey, l.userEmail, Models.PlanCode(l.planType), l.endDate, l.isActive)
  }

  /** The server's status string, with `not_found` spelled `invalid` as the desktop tool does. */
  function DesktopSpelling(s: Models.LicenseStatus): (name: string)
    ensures s != Models.NotFound ==> name == Models.StatusCode(s)
  {
    if s == Models.NotFound then "invalid" else Models.StatusCode(s)
  }

  /**
   * On a well-formed key the desktop tool and the HTTP service reach the same
   * verdict on the same data, up to the spelling of `not_found`.
   */
  lemma DesktopAgreesWithServer(store: map<string, Models.License>, key: string, now: int)
    requires Validators.ValidateLicenseKeyFormat(key)
    ensures StatusName(DesktopVerifyLicense(map k | k in store :: DesktopOf(store[k]), key, now))
         == DesktopSpelling(LicenseService.VerifyLicense(store, key, now).status)
  {
    Models.PlanCodeBijection();
    var rows := map k | k in store :: DesktopOf(store[k]);
    if key in store {
      assert rows[key] == DesktopOf(store[key]);
      assert rows[key].planType == "lifetime" <==> store[key].planType == Models.Lifetime;
    }
  }

  /** Without a format check, the desktop tool verifies stored keys the HTTP service refuses to look up. */
  lemma DesktopSkipsFormatCheck(store: map<string, Models.License>, key: string, now: int)
    requires key in store && !Validators.ValidateLicenseKeyFormat(key)
    ensures LicenseService.VerifyLicense(store, key, now).status == Models.NotFound
    ensures !DesktopVerifyLicense(map k | k in store :: DesktopOf(store[k]), key, now).Invalid?
  {
  }

  /** The status column of `refresh_license_list`; it does not look at the plan. */
  function ListStatus(l: DesktopLicense, now: int): (status: string)
    ensures status == "禁用" <==> !l.isActive
    ensures status == "过期" <==> l.isActive && l.endDate.Some? && now > l.endDate.value
    ensures status == "有效" <==> l.isActive && !(l.endDate.Some? && now > l.endDate.value)
  {
    if !l.isActive then "禁用"
    else if l.endDate.Some? && now > l.endDate.value then "过期"
    else "有效"
  }

  /** On a row where only lifetime plans lack an end date, the list status and `verify_license` agree. */
  lemma ListStatusAgreesWithVerify(rows: map<string, DesktopLicense>, key: string, now: int)
    requires key in rows && LifetimeIffNoEnd(rows[key])
    ensures var v := DesktopVerifyLicense(rows, key, now);
      && (ListStatus(rows[key], now) == "禁用" <==> v.DisabledKey?)
      && (ListStatus(rows[key], now) == "过期" <==> v.ExpiredAt?)
      && (ListStatus(rows[key], now) == "有效" <==> v.ValidKey?)
  {
  }

  /** A lifetime row carrying a past end date is listed as expired yet verifies as valid. */
  lemma ListStatusIgnoresLifetime(key: string, now: int)
    ensures var l := DesktopLicense("", key, None, "lifetime", Some(now - 1), true);
      ListStatus(l, now) == "过期" && DesktopVerifyLicense(map[key := l], key, now).ValidKey?
  {
  }

  /** `plan_names.get(plan_type, plan_type)`. */
  function PlanName(planType: string): (name: string)
    ensures Models.PlanFromCode(planType).None? ==> name == planType
    ensures Models.PlanFromCode(planType).Some? ==> name != planType
  {
    if planType == "trial1" then "1天试用"
    else if planType == "trial3" then "3天试用"
    else if planType == "30d" then "30天授权"
    else if planType == "180d" then "180天授权"
    else if planType == "365d" then "365天授权"
    else if planType == "lifetime" then "永久授权"
    else planType
  }

  /** The six plan codes are shown under six different names. */
  lemma PlanNamesDistinct(p: Models.PlanType, q: Models.PlanType)
    ensures PlanName(Models.PlanCode(p)) == PlanName(Models.PlanCode(q)) ==> p == q
  {
  }

  /** One line of the license list: key, email or `''`, plan name, status, end date (`None` is shown as `永久`). */
  datatype ListRow = ListRow(licenseKey: string, userEmail: string, planName: string, status: string, endDate: Option<int>)

  /** The line `refresh_license_list` shows for one license. */
  function ListRowOf(l: DesktopLicense, now: int): ListRow
  {
    ListRow(l.licenseKey, if l.userEmail.Some? then l.userEmail.value else "", PlanName(l.planType),
            ListStatus(l, now), l.endDate)
  }

  /** `refresh_license_list`: one line per license of `get_all_licenses()`, in its order. */
  method RefreshLicenseList(licenses: seq<DesktopLicense>, now: int) returns (lines: seq<ListRow>)
    ensures |lines| == |licenses|
    ensures forall i | 0 <= i < |licenses| :: lines[i] == ListRowOf(licenses[i], now)
  {
    lines := [];
    for i := 0 to |licenses|
      invariant |lines| == i
      invariant forall j | 0 <= j < i :: lines[j] == ListRowOf(licenses[j], now)
    {
      lines := lines + [ListRowOf(licenses[i], now)];
    }
  }

  /** The three numbers of `update_stats`. */
  datatype Stats = Stats(total: nat, active: nat, expired: nat)

  /** The expiry test of `update_stats`: active, an end date, and the end date before `now`. */
  predicate CountsAsExpired(l: DesktopLicense, now: int)
  {
    l.isActive && l.endDate.Some? && l.endDate.value < now
  }

  function CountActive(ls: seq<DesktopLicense>): (n: nat)
    ensures n <= |ls|
  {
    if ls == [] then 0 else (if ls[0].isActive then 1 else 0) + CountActive(ls[1..])
  }

  function CountExpired(ls: seq<DesktopLicense>, now: int): nat
  {
    if ls == [] then 0 else (if CountsAsExpired(ls[0], now) then 1 else 0) + CountExpired(ls[1..], now)
  }

  /** How many lines of the list carry `status`. */
  function CountStatus(lines: seq<ListRow>, status: string): nat
  {
    if lines == [] then 0 else (if lines[0].status == status then 1 else 0) + CountStatus(lines[1..], status)
  }

  /** `update_stats`: all licenses, the active ones, and the active ones past their end date. */
  function UpdateStats(licenses: seq<DesktopLicense>, now: int): (s: Stats)
    ensures s.total == |licenses|
  {
    Stats(|licenses|, CountActive(licenses), CountExpired(licenses, now))
  }

  /** The counts are nested: expired ≤ active ≤ total. */
  lemma {:induction false} StatsOrdered(licenses: seq<DesktopLicense>, now: int)
    ensures var s := UpdateStats(licenses, now);
      s.expired <= s.active <= s.total
  {
    if licenses != [] {
      StatsOrdered(licenses[1..], now);
    }
  }

  /**
   * The panel and the list agree: the active count is the number of lines not
   * marked `禁用`, the expired count the number marked `过期`.
   */
  lemma {:induction false} StatsMatchList(licenses: seq<DesktopLicense>, lines: seq<ListRow>, now: int)
    requires |lines| == |licenses|
    requires forall i | 0 <= i < |licenses| :: lines[i] == ListRowOf(licenses[i], now)
    ensures UpdateStats(licenses, now).active == |lines| - CountStatus(lines, "禁用")
    ensures UpdateStats(licenses, now).expired == CountStatus(lines, "过期")
  {
    if licenses != [] {
      StatsMatchList(licenses[1..], lines[1..], now);
      assert lines[0] == ListRowOf(licenses[0], now);
    }
  }
}

=== FILE: error_handlers.dfy ===
/**
 * `utils/error_handlers.py`: the exception hierarchy of the license system,
 * the standard error body built by `create_error_response`, the status each
 * exception handler maps to, and the `handle_*` helpers that raise.
 */
module ErrorHandlers {
  import opened Common
  import opened Text
  import opened Http

  const BadRequest: int := 400
  const UnprocessableEntity: int := 422
  const InternalServerError: int := 500

  /** The constants of `ErrorCodes`. */
  const InternalServerErrorCode: string := "INTERNAL_SERVER_ERROR"
  const ValidationErrorCode: string := "VALIDATION_ERROR"
  const SecurityErrorCode: string := "SECURITY_ERROR"
  const LicenseNotFoundCode: string := "LICENSE_NOT_FOUND"
  const LicenseExpiredCode: string := "LICENSE_EXPIRED"
  const LicenseDisabledCode: string := "LICENSE_DISABLED"
  const LicenseInvalidFormatCode: string := "LICENSE_INVALID_FORMAT"
  const DatabaseConnectionErrorCode: string := "DATABASE_CONNECTION_ERROR"
  const DatabaseQueryErrorCode: string := "DATABASE_QUERY_ERROR"
  const NetworkErrorCode: string := "NETWORK_ERROR"
  const TimeoutErrorCode: string := "TIMEOUT_ERROR"
  const UnauthorizedCode: string := "UNAUTHORIZED"
  const ForbiddenCode: string := "FORBIDDEN"
  const RateLimitExceededCode: string := "RATE_LIMIT_EXCEEDED"

  /**
   * The classes of the hierarchy: `LicenseSystemError` itself and its three
   * subclasses. A value of `LicenseSystemError` with any kind is an instance of
   * the base class, which is what the subclass relation gives.
   */
  datatype ErrorKind = Base | Database | Validation | Security

  /** A raised `LicenseSystemError` (or subclass): its message and optional code. */
  datatype LicenseSystemError = LicenseSystemError(kind: ErrorKind, message: string, errorCode: Option<string>)

  /** `CustomHTTPException`, and a plain `HTTPException` with no code and no extra data. */
  datatype HttpError = HttpError(statusCode: int, detail: string, errorCode: Option<string>, additional: Dict)

  /** Python truthiness of an optional string: present and non-empty. */
  predicate Truthy(code: Option<string>)
  {
    code.Some? && code.value != ""
  }

  /** The body before `additional_data` is merged: `error`, `message`, `status_code`, then `error_code` if truthy. */
  function BaseBody(statusCode: int, message: string, errorCode: Option<string>): Dict
  {
    [("error", JBool(true)), ("message", JStr(message)), ("status_code", JInt(statusCode))]
    + (if Truthy(errorCode) then [("error_code", JStr(errorCode.value))] else [])
  }

  /** The base body's keys are distinct and start with `error`, `message`, `status_code`. */
  lemma BaseBodyShape(statusCode: int, message: string, errorCode: Option<string>)
    ensures IsDict(BaseBody(statusCode, message, errorCode))
    ensures Keys(BaseBody(statusCode, message, errorCode))[..3] == ["error", "message", "status_code"]
  {
  }

  /** What each key of the base body holds; `error_code` is there only for a truthy code. */
  lemma BaseBodyLookup(statusCode: int, message: string, errorCode: Option<string>, k: string)
    ensures Lookup(BaseBody(statusCode, message, errorCode), k)
         == if k == "error" then Some(JBool(true))
            else if k == "message" then Some(JStr(message))
            else if k == "status_code" then Some(JInt(statusCode))
            else if k == "error_code" && Truthy(errorCode) then Some(JStr(errorCode.value))
            else None
  {
    var d := BaseBody(statusCode, message, errorCode);
    var d1 := d[1..];
    var d2 := d1[1..];
    var d3 := d2[1..];
    assert d3 == (if Truthy(errorCode) then [("error_code", JStr(errorCode.value))] else []);
    assert d[0].0 == "error" && d1[0].0 == "message" && d2[0].0 == "status_code";
    assert Lookup(d, k) == if k == "error" then Some(JBool(true)) else Lookup(d1, k);
    assert Lookup(d1, k) == if k == "message" then Some(JStr(message)) else Lookup(d2, k);
    assert Lookup(d2, k) == if k == "status_code" then Some(JInt(statusCode)) else Lookup(d3, k);
  }

  /**
   * `create_error_response`: the status is the given one; the body starts with
   * `error`, `message` and `status_code`, and `additional_data` is merged last.
   * Merging an empty dictionary changes nothing, so the `if additional_data`
   * guard needs no case of its own.
   */
  function CreateErrorResponse(statusCode: int, message: string, errorCode: Option<string>, additional: Dict): (r: JsonResponse)
    ensures r.statusCode == statusCode
    ensures |r.content| >= 3 && Keys(r.content)[..3] == ["error", "message", "status_code"]
    ensures IsDict(r.content)
  {
    var base := BaseBody(statusCode, message, errorCode);
    BaseBodyShape(statusCode, message, errorCode);
    UpdateIsDict(base, additional);
    var content := Update(base, additional);
    assert Keys(content)[..3] == Keys(content)[..|base|][..3];
    JsonResponse(statusCode, content)
  }

  /** Each key of the body: from `additional_data` if it has the key, from the base body otherwise. */
  lemma ErrorBodyLookup(statusCode: int, message: string, errorCode: Option<string>, additional: Dict, k: string)
    requires IsDict(additional)
    ensures Lookup(CreateErrorResponse(statusCode, message, errorCode, additional).content, k)
         == if k in Keys(additional) then Lookup(additional, k) else Lookup(BaseBody(statusCode, message, errorCode), k)
  {
    UpdateLookup(BaseBody(statusCode, message, errorCode), additional, k);
  }

  /** Without extra data, `error_code` is in the body exactly when the code is truthy, and then holds it. */
  lemma ErrorCodePresent(statusCode: int, message: string, errorCode: Option<string>)
    ensures var body := CreateErrorResponse(statusCode, message, errorCode, []).content;
      && ("error_code" in Keys(body) <==> Truthy(errorCode))
      && (Truthy(errorCode) ==> Lookup(body, "error_code") == Some(JStr(errorCode.value)))
      && Lookup(body, "error") == Some(JBool(true))
      && Lookup(body, "message") == Some(JStr(message))
      && Lookup(body, "status_code") == Some(JInt(statusCode))
  {
    ErrorBodyLookup(statusCode, message, errorCode, [], "error_code");
    ErrorBodyLookup(statusCode, message, errorCode, [], "error");
    ErrorBodyLookup(statusCode, message, errorCode, [], "message");
    ErrorBodyLookup(statusCode, message, errorCode, [], "status_code");
    BaseBodyLookup(statusCode, message, errorCode, "error_code");
    BaseBodyLookup(statusCode, message, errorCode, "error");
    BaseBodyLookup(statusCode, message, errorCode, "message");
    BaseBodyLookup(statusCode, message, errorCode, "status_code");
  }

  /** `http_exception_handler`: the exception's own status, detail, code and extra data. */
  function HttpExceptionHandler(exc: HttpError): (r: JsonResponse)
    ensures r.statusCode == exc.statusCode
    ensures IsDict(exc.additional) && "message" !in Keys(exc.additional)
            ==> Lookup(r.content, "message") == Some(JStr(exc.detail))
  {
    var r := CreateErrorResponse(exc.statusCode, exc.detail, exc.errorCode, exc.additional);
    if IsDict(exc.additional) then
      ErrorBodyLookup(exc.statusCode, exc.detail, exc.errorCode, exc.additional, "message");
      BaseBodyLookup(exc.statusCode, exc.detail, exc.errorCode, "message");
      r
    else r
  }

  /** `validation_exception_handler`: 422, `VALIDATION_ERROR`, and the errors under `validation_errors`. */
  function ValidationExceptionHandler(errors: Json): (r: JsonResponse)
    ensures r.statusCode == UnprocessableEntity
    ensures Lookup(r.content, "error_code") == Some(JStr(ValidationErrorCode))
    ensures Lookup(r.content, "validation_errors") == Some(errors)
    ensures Lookup(r.content, "message") == Some(JStr("请求参数验证失败"))
  {
    var extra: Dict := [("validation_errors", errors)];
    var code := Some(ValidationErrorCode);
    var message := "请求参数验证失败";
    assert Keys(extra) == ["validation_errors"];
    ErrorBodyLookup(UnprocessableEntity, message, code, extra, "error_code");
    ErrorBodyLookup(UnprocessableEntity, message, code, extra, "validation_errors");
    ErrorBodyLookup(UnprocessableEntity, message, code, extra, "message");
    BaseBodyLookup(UnprocessableEntity, message, code, "error_code");
    BaseBodyLookup(UnprocessableEntity, message, code, "message");
    CreateErrorResponse(UnprocessableEntity, message, code, extra)
  }

  /** `general_exception_handler`: 500 and `INTERNAL_SERVER_ERROR`, whatever the exception. */
  function GeneralExceptionHandler(): (r: JsonResponse)
    ensures r.statusCode == InternalServerError
    ensures Lookup(r.content, "error_code") == Some(JStr(InternalServerErrorCode))
    ensures Lookup(r.content, "message") == Some(JStr("服务器内部错误"))
  {
    ErrorCodePresent(InternalServerError, "服务器内部错误", Some(InternalServerErrorCode));
    CreateErrorResponse(InternalServerError, "服务器内部错误", Some(InternalServerErrorCode), [])
  }

  /** `license_system_error_handler`: 400 with the error's own message and code, for every subclass. */
  function LicenseSystemErrorHandler(e: LicenseSystemError): (r: JsonResponse)
    ensures r.statusCode == BadRequest
    ensures Lookup(r.content, "message") == Some(JStr(e.message))
    ensures "error_code" in Keys(r.content) <==> Truthy(e.errorCode)
    ensures Truthy(e.errorCode) ==> Lookup(r.content, "error_code") == Some(JStr(e.errorCode.value))
  {
    ErrorCodePresent(BadRequest, e.message, e.errorCode);
    CreateErrorResponse(BadRequest, e.message, e.errorCode, [])
  }

  const DatabaseErrorPrefix: string := "数据库操作失败: "

  /** `handle_database_error(e, operation)`: raises a `DatabaseError` naming the operation, without a code. */
  function HandleDatabaseError(operation: string): (e: LicenseSystemError)
    ensures e.kind == Database && e.errorCode.None?
    ensures StartsWith(e.message, DatabaseErrorPrefix)
    ensures e.message[|DatabaseErrorPrefix|..] == operation
  {
    LicenseSystemError(Database, DatabaseErrorPrefix + operation, None)
  }

  /** The message `handle_validation_error` raises: prefixed with the field when one is given. */
  function FieldMessage(message: string, field: Option<string>): (m: string)
    ensures |message| <= |m| && m[|m| - |message|..] == message
    ensures !Truthy(field) ==> m == message
    ensures Truthy(field) ==> StartsWith(m, "字段 '" + field.value + "' ")
    ensures Truthy(field) ==> |m| == |"字段 '" + field.value + "' "| + |message|
  {
    if Truthy(field) then
      var prefix := "字段 '" + field.value + "' ";
      assert (prefix + message)[..|prefix|] == prefix;
      prefix + message
    else message
  }

  /** `handle_validation_error(message, field)`: always a `ValidationError` with code `VALIDATION_ERROR`. */
  function HandleValidationError(message: string, field: Option<string>): (e: LicenseSystemError)
    ensures e.kind == Validation
    ensures e.errorCode == Some(ValidationErrorCode)
    ensures e.message == FieldMessage(message, field)
  {
    LicenseSystemError(Validation, FieldMessage(message, field), Some(ValidationErrorCode))
  }

  /** `handle_security_error(message)`: a `SecurityError` with code `SECURITY_ERROR` and the message unchanged. */
  function HandleSecurityError(message: string): (e: LicenseSystemError)
    ensures e.kind == Security && e.message == message
    ensures e.errorCode == Some(SecurityErrorCode)
  {
    LicenseSystemError(Security, message, Some(SecurityErrorCode))
  }

  /**
   * A validation error raised by `handle_validation_error`, once the
   * license-system handler turns it into a response, is a 400 carrying
   * `VALIDATION_ERROR`, not the 422 of a request-validation failure. Whether
   * that handler is installed is up to the application.
   */
  lemma RaisedValidationErrorIs400(message: string, field: Option<string>)
    ensures var r := LicenseSystemErrorHandler(HandleValidationError(message, field));
      && r.statusCode == BadRequest
      && Lookup(r.content, "error_code") == Some(JStr(ValidationErrorCode))
      && Lookup(r.content, "message") == Some(JStr(FieldMessage(message, field)))
      && r.statusCode != ValidationExceptionHandler(JNull).statusCode
  {
  }

  /** The license-system handler turns a database error into a 400 with the operation in its message and no code. */
  lemma RaisedDatabaseErrorIs400(operation: string)
    ensures var r := LicenseSystemErrorHandler(HandleDatabaseError(operation));
      && r.statusCode == BadRequest
      && Lookup(r.content, "message") == Some(JStr(DatabaseErrorPrefix + operation))
      && "error_code" !in Keys(r.content)
  {
  }
}

=== FILE: http.dfy ===
/**
 * The values the HTTP layer moves around: JSON bodies, Python dictionaries
 * (which remember insertion order), and `JSONResponse`.
 */
module Http {
  import opened Common

  /** A JSON value. */
  datatype Json =
    | JNull
    | JBool(b: bool)
    | JInt(i: int)
    | JStr(s: string)
    | JList(items: seq<Json>)
    | JObject(fields: Dict)

  /** A Python `dict` with string keys: its bindings in insertion order. */
  type Dict = seq<(string, Json)>

  /** The keys of `d`, in insertion order. */
  function Keys(d: Dict): (ks: seq<string>)
    ensures |ks| == |d|
    ensures forall i | 0 <= i < |d| :: ks[i] == d[i].0
  {
    if d == [] then [] else [d[0].0] + Keys(d[1..])
  }

  /** Every key occurs once, as in any Python dictionary. */
  predicate IsDict(d: Dict)
  {
    forall i, j | 0 <= i < j < |d| :: d[i].0 != d[j].0
  }

  /** `d.get(k)`. */
  function Lookup(d: Dict, k: string): (r: Option<Json>)
    ensures r.None? <==> k !in Keys(d)
    ensures r.Some? ==> (k, r.value) in d
  {
    if d == [] then None
    else if d[0].0 == k then Some(d[0].1)
    else Lookup(d[1..], k)
  }

  /**
   * `d[k] = v`: an existing key keeps its place and takes the new value; a new
   * key goes at the end.
   */
  function Set(d: Dict, k: string, v: Json): (r: Dict)
    ensures k in Keys(d) ==> Keys(r) == Keys(d)
    ensures k !in Keys(d) ==> Keys(r) == Keys(d) + [k]
  {
    if d == [] then [(k, v)]
    else if d[0].0 == k then [(k, v)] + d[1..]
    else [d[0]] + Set(d[1..], k, v)
  }

  /** After `d[k] = v`, `k` maps to `v` and every other key to what it did before. */
  lemma {:induction false} SetLookup(d: Dict, k: string, v: Json, k': string)
    ensures Lookup(Set(d, k, v), k') == if k' == k then Some(v) else Lookup(d, k')
  {
    if d != [] && d[0].0 != k {
      SetLookup(d[1..], k, v, k');
      assert Set(d, k, v)[1..] == Set(d[1..], k, v);
    }
  }

  /** Assigning to a key keeps the keys distinct. */
  lemma SetIsDict(d: Dict, k: string, v: Json)
    requires IsDict(d)
    ensures IsDict(Set(d, k, v))
  {
    var r := Set(d, k, v);
    var kr, kd := Keys(r), Keys(d);
    forall i, j | 0 <= i < j < |r| ensures r[i].0 != r[j].0 {
      assert kr[i] == r[i].0 && kr[j] == r[j].0;
      assert kd[i] == d[i].0 && kr[i] == kd[i];
      if j < |d| {
        assert kd[j] == d[j].0 && kr[j] == kd[j];
      } else {
        assert k !in kd && kr[j] == k;
        assert kd[i] in kd;
      }
    }
  }

  /** `d.update(other)`: each binding of `other`, in order, as `d[k] = v`. */
  function Update(d: Dict, other: Dict): (r: Dict)
    ensures |d| <= |r| && Keys(r)[..|d|] == Keys(d)
    decreases |other|
  {
    if other == [] then d
    else
      var d' := Set(d, other[0].0, other[0].1);
      var r := Update(d', other[1..]);
      assert Keys(r)[..|d|] == Keys(r)[..|d'|][..|d|];
      r
  }

  /** Updating keeps the keys distinct. */
  lemma {:induction false} UpdateIsDict(d: Dict, other: Dict)
    requires IsDict(d)
    ensures IsDict(Update(d, other))
    decreases |other|
  {
    if other != [] {
      SetIsDict(d, other[0].0, other[0].1);
      UpdateIsDict(Set(d, other[0].0, other[0].1), other[1..]);
    }
  }

  /** After `d.update(other)` a key of `other` has `other`'s value; every other key keeps its own. */
  lemma {:induction false} UpdateLookup(d: Dict, other: Dict, k: string)
    requires IsDict(other)
    ensures Lookup(Update(d, other), k)
         == if k in Keys(other) then Lookup(other, k) else Lookup(d, k)
    decreases |other|
  {
    if other != [] {
      var d' := Set(d, other[0].0, other[0].1);
      var rest := other[1..];
      assert IsDict(rest) by {
        forall i, j | 0 <= i < j < |rest| ensures rest[i].0 != rest[j].0 {
          assert rest[i] == other[i + 1] && rest[j] == other[j + 1];
        }
      }
      UpdateLookup(d', rest, k);
      SetLookup(d, other[0].0, other[0].1, k);
      assert Keys(other) == [other[0].0] + Keys(rest);
      if k == other[0].0 {
        assert k !in Keys(rest) by {
          forall i | 0 <= i < |rest| ensures Keys(rest)[i] != k {
            assert rest[i] == other[i + 1];
          }
        }
      }
    }
  }

  /** `JSONResponse(status_code=…, content=…)`. */
  datatype JsonResponse = JsonResponse(statusCode: int, content: Dict)
}

=== FILE: key_layout.dfy ===
/**
 * The `XXXX-XXXX-XXXX-XXXX` layout, over any symbol class that does not
 * contain the separator. Both the 32-symbol codec and the `[A-Z0-9]` regex
 * are instances of it.
 */
module KeyLayout {
  import opened Text

  /** The separator positions of a 19-character key. */
  predicate IsSeparatorIndex(i: int)
  {
    i == 4 || i == 9 || i == 14
  }

  /** 19 characters, `-` at 4, 9 and 14, symbols of `alpha` everywhere else. */
  predicate Layout(s: string, alpha: seq<char>)
  {
    && |s| == 19
    && forall i | 0 <= i < 19 :: if IsSeparatorIndex(i) then s[i] == '-' else s[i] in alpha
  }

  /** One group: four symbols of `alpha`. */
  predicate IsGroup(g: string, alpha: seq<char>)
  {
    |g| == 4 && forall c | c in g :: c in alpha
  }

  /** The split rule: non-empty, four `-`-separated parts, each a group. */
  predicate SplitsIntoGroups(s: string, alpha: seq<char>)
  {
    && s != ""
    && var parts := Split(s, '-');
    && |parts| == 4
    && forall i | 0 <= i < |parts| :: IsGroup(parts[i], alpha)
  }

  lemma JoinFour(groups: seq<string>)
    requires |groups| == 4
    ensures Join(groups, '-') == groups[0] + "-" + groups[1] + "-" + groups[2] + "-" + groups[3]
  {
    var t1 := groups[1..];
    var t2 := t1[1..];
    var t3 := t2[1..];
    assert t3 == [groups[3]];
    assert Join(t3, '-') == groups[3];
    assert Join(t2, '-') == groups[2] + "-" + groups[3];
    assert Join(t1, '-') == groups[1] + "-" + groups[2] + "-" + groups[3];
  }

  /** Four groups joined by `-` have the layout. */
  lemma JoinedGroupsLayout(groups: seq<string>, alpha: seq<char>)
    requires |groups| == 4 && forall g | g in groups :: IsGroup(g, alpha)
    ensures Layout(Join(groups, '-'), alpha)
  {
    JoinFour(groups);
    var s := Join(groups, '-');
    var g0, g1, g2, g3 := groups[0], groups[1], groups[2], groups[3];
    assert g0 in groups && g1 in groups && g2 in groups && g3 in groups;
    assert s == g0 + "-" + g1 + "-" + g2 + "-" + g3;
    forall i | 0 <= i < 19
      ensures if IsSeparatorIndex(i) then s[i] == '-' else s[i] in alpha
    {
      if i < 4 {
        assert s[i] == g0[i] && g0[i] in g0;
      } else if 4 < i < 9 {
        assert s[i] == g1[i - 5] && g1[i - 5] in g1;
      } else if 9 < i < 14 {
        assert s[i] == g2[i - 10] && g2[i - 10] in g2;
      } else if 14 < i {
        assert s[i] == g3[i - 15] && g3[i - 15] in g3;
      }
    }
  }

  /** A string with the layout is its four groups joined by `-`. */
  lemma LayoutGroups(s: string, alpha: seq<char>)
    requires Layout(s, alpha)
    ensures var groups := [s[0..4], s[5..9], s[10..14], s[15..19]];
      && (forall g | g in groups :: IsGroup(g, alpha) && ('-' !in g || '-' in alpha))
      && s == Join(groups, '-')
  {
    var groups := [s[0..4], s[5..9], s[10..14], s[15..19]];
    JoinFour(groups);
    assert s == groups[0] + "-" + groups[1] + "-" + groups[2] + "-" + groups[3];
    forall g | g in groups
      ensures IsGroup(g, alpha) && ('-' !in g || '-' in alpha)
    {
      var k :| 0 <= k < 4 && groups[k] == g;
      forall j | 0 <= j < 4 ensures g[j] == s[5 * k + j] {
      }
    }
  }

  /** For a symbol class without `-`, the split rule and the layout accept the same strings. */
  lemma {:induction false} SplitsIffLayout(s: string, alpha: seq<char>)
    requires '-' !in alpha
    ensures SplitsIntoGroups(s, alpha) <==> Layout(s, alpha)
  {
    if SplitsIntoGroups(s, alpha) {
      var parts := Split(s, '-');
      JoinSplit(s, '-');
      assert forall g | g in parts :: IsGroup(g, alpha);
      JoinedGroupsLayout(parts, alpha);
    }
    if Layout(s, alpha) {
      var groups := [s[0..4], s[5..9], s[10..14], s[15..19]];
      LayoutGroups(s, alpha);
      SplitJoin(groups, '-');
    }
  }

  /** The layout is monotone in the symbol class. */
  lemma LayoutWiden(s: string, alpha: seq<char>, beta: seq<char>)
    requires Layout(s, alpha)
    requires forall c | c in alpha :: c in beta
    ensures Layout(s, beta)
  {
  }
}

=== FILE: license_generator.dfy ===
/**
 * The license-key codec of `utils/license_generator.py`: keys of the form
 * `XXXX-XXXX-XXXX-XXXX` over a 32-symbol alphabet without the look-alike
 * characters `I`, `O`, `0` and `1`.
 */
module LicenseGenerator {
  import opened Common
  import opened Text
  import opened KeyLayout

  /** The symbols a key is drawn from. */
  const Alphabet: string := "ABCDEFGHJKLMNPQRSTUVWXYZ23456789"

  /** Number of groups, and of symbols in a group. */
  const GroupCount: nat := 4
  const GroupLength: nat := 4

  /** The alphabet described by ranges: upper-case letters other than I and O, digits 2 to 9. */
  predicate IsKeyChar(c: char)
  {
    ('A' <= c <= 'Z' && c != 'I' && c != 'O') || ('2' <= c <= '9')
  }

  /** The alphabet holds 32 symbols, none of them a look-alike or the separator. */
  lemma AlphabetFacts()
    ensures |Alphabet| == 32
    ensures 'I' !in Alphabet && 'O' !in Alphabet && '0' !in Alphabet && '1' !in Alphabet
    ensures '-' !in Alphabet
    ensures forall c | c in Alphabet :: IsKeyChar(c)
  {
    forall i | 0 <= i < |Alphabet|
      ensures IsKeyChar(Alphabet[i])
    {
    }
  }

  /** Where an `IsKeyChar` symbol sits in the alphabet. */
  function Position(c: char): int
  {
    if 'A' <= c <= 'H' then c as int - 'A' as int
    else if 'J' <= c <= 'N' then c as int - 'A' as int - 1
    else if 'P' <= c <= 'Z' then c as int - 'A' as int - 2
    else c as int - '2' as int + 24
  }

  /** Each symbol of the alphabet sits at its `Position`. */
  lemma AlphabetPositions()
    ensures |Alphabet| == 32
    ensures forall i | 0 <= i < 16 :: Position(Alphabet[i]) == i
    ensures forall i | 16 <= i < 32 :: Position(Alphabet[i]) == i
  {
  }

  /** The alphabet is exactly the `IsKeyChar` symbols, each once. */
  lemma AlphabetExact()
    ensures forall c :: c in Alphabet <==> IsKeyChar(c)
    ensures forall i, j | 0 <= i < j < |Alphabet| :: Alphabet[i] != Alphabet[j]
  {
    AlphabetFacts();
    AlphabetPositions();
    forall c | IsKeyChar(c)
      ensures c in Alphabet
    {
      var k := Position(c);
      assert 0 <= k < 32;
      assert Alphabet[k] == c;
    }
  }

  /** A key laid out character by character: 19 characters, `-` at 4, 9 and 14, alphabet symbols elsewhere. */
  predicate KeyShape(s: string)
  {
    Layout(s, Alphabet)
  }

  /**
   * `validate_license_key_format`: the empty string is rejected; otherwise the
   * string must split on `-` into exactly four parts, each of four alphabet symbols.
   */
  predicate ValidateLicenseKeyFormat(key: string)
  {
    SplitsIntoGroups(key, Alphabet)
  }

  /** The split-based validator accepts exactly the strings with the key layout. */
  lemma ValidateIffShape(s: string)
    ensures ValidateLicenseKeyFormat(s) <==> KeyShape(s)
  {
    AlphabetFacts();
    SplitsIffLayout(s, Alphabet);
  }

  /** Any accepted string has length 19 and exactly three hyphens, at 4, 9 and 14. */
  lemma AcceptedLayout(s: string)
    requires ValidateLicenseKeyFormat(s)
    ensures |s| == 19
    ensures forall i | 0 <= i < |s| :: s[i] == '-' <==> IsSeparatorIndex(i)
  {
    ValidateIffShape(s);
    AlphabetFacts();
  }

  /**
   * `generate_license_key`: four groups of four symbols, each picked by the
   * random source from the alphabet (here: some alphabet symbol, unspecified),
   * joined by `-`. Every generated key passes the validator.
   */
  method GenerateLicenseKey() returns (key: string)
    ensures KeyShape(key)
    ensures ValidateLicenseKeyFormat(key)
  {
    var segments: seq<string> := [];
    for n := 0 to GroupCount
      invariant |segments| == n
      invariant forall g | g in segments :: IsGroup(g, Alphabet)
    {
      var segment: string := "";
      for m := 0 to GroupLength
        invariant |segment| == m
        invariant forall c | c in segment :: c in Alphabet
      {
        assert Alphabet[0] in Alphabet;
        var c :| c in Alphabet;  // secrets.choice(characters)
        segment := segment + [c];
      }
      segments := segments + [segment];
    }
    key := Join(segments, '-');
    JoinedGroupsLayout(segments, Alphabet);
    ValidateIffShape(key);
  }

  /**
   * `generate_batch_license_keys(count)`: add generated keys to a set until it
   * holds `count` of them. The random source is the sequence `draws` of keys
   * that successive `generate_license_key` calls return; `used` is how many
   * of them the loop consumed.
   */
  method GenerateBatchLicenseKeys(count: int, draws: seq<string>) returns (keys: set<string>, used: nat)
    requires forall k | k in draws :: ValidateLicenseKeyFormat(k)
    ensures used <= |draws|
    ensures keys == set k | k in draws[..used]
    ensures |keys| <= Max(count, 0)
    ensures |keys| < count ==> used == |draws|
    ensures forall k | k in keys :: ValidateLicenseKeyFormat(k)
    ensures |set k | k in draws| >= count ==> |keys| == Max(count, 0)
  {
    keys, used := {}, 0;
    while |keys| < count && used < |draws|
      decreases |draws| - used
      invariant used <= |draws|
      invariant keys == set k | k in draws[..used]
      invariant |keys| <= Max(count, 0)
      invariant |keys| <= used
    {
      ghost var before := keys;
      var key := draws[used];
      keys := keys + {key};
      assert draws[..used + 1] == draws[..used] + [key];
      used := used + 1;
      assert before <= keys && |keys| <= |before| + 1;
    }
    if |keys| < count {
      assert draws[..used] == draws;
    }
  }

  /** `2` to the power `e`, and other small powers. */
  function Pow(b: nat, e: nat): nat
  {
    if e == 0 then 1 else b * Pow(b, e - 1)
  }

  /** `int(math.log2(n))` for `n >= 1`: the largest `k` with `2^k <= n`. */
  function Log2Floor(n: nat): nat
  {
    if n < 2 then 0 else 1 + Log2Floor(n / 2)
  }

  lemma {:induction false} Log2OfPower(k: nat)
    ensures Log2Floor(Pow(2, k)) == k
  {
    if k > 0 {
      Log2OfPower(k - 1);
      assert Pow(2, k) / 2 == Pow(2, k - 1);
    }
  }

  lemma {:induction false} Pow32(n: nat)
    ensures Pow(32, n) == Pow(2, 5 * n)
  {
    if n > 0 {
      Pow32(n - 1);
      calc {
        Pow(2, 5 * n);
        2 * Pow(2, 5 * n - 1);
        4 * Pow(2, 5 * n - 2);
        8 * Pow(2, 5 * n - 3);
        16 * Pow(2, 5 * n - 4);
        32 * Pow(2, 5 * (n - 1));
      }
    }
  }

  /**
   * `get_license_key_entropy`: the bits of entropy of a key, `log2(32^16)`;
   * `2^bits` is the number of distinct keys, and that is 80 bits.
   */
  function LicenseKeyEntropy(): (bits: nat)
    ensures Pow(2, bits) == Pow(|Alphabet|, GroupCount * GroupLength)
    ensures bits == 80
  {
    Pow32(16);
    Log2OfPower(80);
    Log2Floor(Pow(|Alphabet|, GroupCount * GroupLength))
  }
}

=== FILE: license_service.dfy ===
/**
 * The HTTP service of `main.py`: the plan-to-days table, the verification
 * chain of `GET /verify/{license_key}` and the issuing of `POST /generate`.
 * The `licenses` table is a map from license key to row (the key column is
 * unique); time is integer seconds, one `now` per request.
 */
module LicenseService {
  import opened Common
  import opened Models
  import LicenseGenerator
  import Validators
  import ErrorHandlers

  /** Seconds in a day: `timedelta(days=d)` is `d * DaySeconds`. */
  const DaySeconds: int := 86400

  /** `PLAN_DAYS_MAPPING`: days of validity, none for a lifetime plan. */
  function PlanDays(p: PlanType): (d: Option<nat>)
    ensures d.None? <==> p == Lifetime
    ensures d.Some? ==> 1 <= d.value <= 365
  {
    match p
    case Trial1 => Some(1)
    case Trial3 => Some(3)
    case Days30 => Some(30)
    case Days180 => Some(180)
    case Days365 => Some(365)
    case Lifetime => None
  }

  /** The end date `generate_license` stores: absent for lifetime, `now` plus the plan's days otherwise. */
  function EndDateFor(p: PlanType, now: int): (end: Option<int>)
    ensures end.None? <==> p == Lifetime
    ensures end.Some? ==> end.value == now + PlanDays(p).value * DaySeconds
    ensures end.Some? ==> now + DaySeconds <= end.value <= now + 365 * DaySeconds
  {
    match PlanDays(p)
    case None => None
    case Some(days) => Some(now + days * DaySeconds)
  }

  /** The expiry test of `verify_license`: not lifetime, an end date, and `now` strictly after it. */
  predicate IsExpired(l: License, now: int)
  {
    l.planType != Lifetime && l.endDate.Some? && now > l.endDate.value
  }

  const InvalidFormatMessage: string := "授权码格式无效"
  const NotFoundMessage: string := "授权码不存在"
  const DisabledMessage: string := "授权码已被禁用"
  const ExpiredMessage: string := "授权码已过期"
  const VerifiedMessage: string := "授权码验证成功"

  /**
   * `verify_license`: format (with the regex validator), then lookup, then the
   * active flag, then expiry; whatever passes all four is valid. The store is
   * only read.
   */
  function VerifyLicense(store: map<string, License>, key: string, now: int): (r: VerifyResponse)
    ensures r.status == NotFound <==> !Validators.ValidateLicenseKeyFormat(key) || key !in store
    ensures r.status == Disabled <==> Validators.ValidateLicenseKeyFormat(key) && key in store && !store[key].isActive
    ensures r.status == Expired <==>
              Validators.ValidateLicenseKeyFormat(key) && key in store && store[key].isActive && IsExpired(store[key], now)
    ensures !Validators.ValidateLicenseKeyFormat(key) ==> r == StatusResponse(NotFound, InvalidFormatMessage)
    ensures r.status == Valid ==>
              && r.planType == Some(store[key].planType)
              && r.endDate == store[key].endDate
              && r.userEmail == store[key].userEmail
              && r.message == Some(VerifiedMessage)
  {
    if !Validators.ValidateLicenseKeyFormat(key) then StatusResponse(NotFound, InvalidFormatMessage)
    else if key !in store then StatusResponse(NotFound, NotFoundMessage)
    else
      var row := store[key];
      if !row.isActive then StatusResponse(Disabled, DisabledMessage)
      else if IsExpired(row, now) then StatusResponse(Expired, ExpiredMessage)
      else VerifyResponse(Valid, Some(row.planType), row.endDate, row.userEmail, Some(VerifiedMessage))
  }

  /** Verifying one key does not depend on the rows of other keys. */
  lemma VerifyIgnoresOtherRows(store: map<string, License>, other: string, row: License, key: string, now: int)
    requires other != key
    ensures VerifyLicense(store[other := row], key, now) == VerifyLicense(store, key, now)
  {
  }

  /** Disabling a license (the only flag an update can flip) makes it `disabled` at every time, expired or not. */
  lemma DisabledWinsOverExpiry(store: map<string, License>, key: string, now: int)
    requires key in store && Validators.ValidateLicenseKeyFormat(key)
    ensures var off := ApplyUpdate(store[key], LicenseUpdate(None, Some(false)));
      VerifyLicense(store[key := off], key, now).status == Disabled
  {
  }

  /** The row `generate_license` inserts for a request at time `now`. */
  function IssuedRow(id: string, key: string, request: GenerateRequest, now: int): (l: License)
    ensures l.licenseKey == key && l.isActive
    ensures l.planType == request.planType && l.userEmail == request.userEmail
    ensures l.startDate == Some(now) && l.endDate == EndDateFor(request.planType, now)
  {
    License(id, key, request.userEmail, request.planType, Some(now), EndDateFor(request.planType, now), true)
  }

  /**
   * A freshly issued license verifies as valid, with the plan, end date and
   * email it was issued with, up to and including its end date, and as
   * expired from the next second on; a lifetime license never expires.
   */
  lemma {:induction false} IssuedThenVerified(store: map<string, License>, id: string, key: string, request: GenerateRequest, issuedAt: int, now: int)
    requires LicenseGenerator.ValidateLicenseKeyFormat(key)
    ensures var r := VerifyLicense(store[key := IssuedRow(id, key, request, issuedAt)], key, now);
      var end := EndDateFor(request.planType, issuedAt);
      && (r.status == Valid <==> end.None? || now <= end.value)
      && (r.status == Expired <==> end.Some? && now > end.value)
      && (r.status == Valid ==> r.planType == Some(request.planType) && r.endDate == end && r.userEmail == request.userEmail)
  {
    Validators.CodecImpliesRegex(key);
  }

  /** The message of a successful `generate_license`: `成功生成` + plan code + `授权码`. */
  function GeneratedMessage(p: PlanType): (m: string)
    ensures |m| == |PlanCode(p)| + 7
    ensures m[..4] == "成功生成" && m[4..|m| - 3] == PlanCode(p) && m[|m| - 3..] == "授权码"
  {
    "成功生成" + PlanCode(p) + "授权码"
  }

  /** The 500 that replaces any failure of `generate_license`. */
  const GenerateFailed: ErrorHandlers.HttpError :=
    ErrorHandlers.HttpError(ErrorHandlers.InternalServerError, "生成授权码失败", None, [])

  /** The `licenses` table of the service. */
  class LicenseStore {
    var rows: map<string, License>

    /** Every row is filed under its own key. */
    predicate Valid()
      reads this
    {
      forall k | k in rows :: rows[k].licenseKey == k
    }

    constructor ()
      ensures rows == map[]
      ensures Valid()
    {
      rows := map[];
    }

    /**
     * `generate_license`: draw one key, compute the end date and insert one
     * active row; a key already in the table makes the insert fail, which the
     * handler turns into a 500 with the table unchanged. There is no retry. The
     * drawn key is returned in both outcomes, so that failure can be tied to it.
     */
    method GenerateLicense(request: GenerateRequest, id: string, now: int)
      returns (key: string, result: Result<GenerateResponse, ErrorHandlers.HttpError>)
      modifies this
      ensures LicenseGenerator.ValidateLicenseKeyFormat(key)
      ensures result.Err? <==> key in old(rows)
      ensures result.Ok? ==>
                && result.value == GenerateResponse(key, request.planType, EndDateFor(request.planType, now),
                                                    request.userEmail, GeneratedMessage(request.planType))
                && rows == old(rows)[key := IssuedRow(id, key, request, now)]
      ensures result.Err? ==> rows == old(rows) && result.error == GenerateFailed
      ensures old(Valid()) ==> Valid()
    {
      key := LicenseGenerator.GenerateLicenseKey();
      var endDate := EndDateFor(request.planType, now);
      if key in rows {
        return key, Err(GenerateFailed);
      }
      rows := rows[key := IssuedRow(id, key, request, now)];
      result := Ok(GenerateResponse(key, request.planType, endDate, request.userEmail, GeneratedMessage(request.planType)));
    }
  }
}

=== FILE: middleware.dfy ===
/**
 * `middleware/security_middleware.py`: client-address extraction, the
 * rate-limit gate with its security headers, and the request-size and
 * content-type checks. Header names are lower-case keys, as the framework
 * looks them up without regard to case.
 */
module Middleware {
  import opened Common
  import opened Text
  import opened Http
  import Security

  /** What a middleware sees of a request: its method, its headers and the connecting host if known. */
  datatype Request = Request(httpMethod: string, headers: map<string, string>, client: Option<string>)

  /** A response: status, headers (lower-case names) and JSON body. */
  datatype Response = Response(statusCode: int, headers: map<string, string>, content: Dict)

  const TooManyRequests: int := 429
  const PayloadTooLarge: int := 413
  const UnsupportedMediaType: int := 415
  const InternalServerError: int := 500

  /** The largest accepted `Content-Length`: 1024 * 1024 bytes. */
  const MaxContentLength: int := 1048576

  /** `headers.get(name, default)`. */
  function Header(headers: map<string, string>, name: string, default: string): (v: string)
    ensures name in headers ==> v == headers[name]
    ensures name !in headers ==> v == default
  {
    if name in headers then headers[name] else default
  }

  /**
   * `get_client_ip`: the first comma-separated entry of a non-empty
   * `X-Forwarded-For`, stripped; else a non-empty `X-Real-IP` as it is; else
   * the connecting host; else `"unknown"`.
   */
  function GetClientIp(request: Request): (ip: string)
    ensures var fwd := Header(request.headers, "x-forwarded-for", "");
      fwd != "" ==> ip == Strip(fwd[..IndexOf(fwd, ',')]) && ',' !in ip
    ensures var fwd := Header(request.headers, "x-forwarded-for", "");
      var realIp := Header(request.headers, "x-real-ip", "");
      fwd == "" && realIp != "" ==> ip == realIp
    ensures var fwd := Header(request.headers, "x-forwarded-for", "");
      var realIp := Header(request.headers, "x-real-ip", "");
      fwd == "" && realIp == "" ==> ip == if request.client.Some? then request.client.value else "unknown"
  {
    var fwd := Header(request.headers, "x-forwarded-for", "");
    var realIp := Header(request.headers, "x-real-ip", "");
    if fwd != "" then
      var first := Split(fwd, ',')[0];
      assert Split(fwd, ',')[0] in Split(fwd, ',');
      StripInside(first);
      Strip(first)
    else if realIp != "" then realIp
    else if request.client.Some? then request.client.value
    else "unknown"
  }

  /** The headers `SecurityMiddleware` adds to every response it forwards. */
  function WithSecurityHeaders(headers: map<string, string>, processTime: string): (h: map<string, string>)
    ensures h.Keys == headers.Keys + {"x-process-time", "x-content-type-options", "x-frame-options", "x-xss-protection"}
    ensures h["x-process-time"] == processTime
    ensures h["x-content-type-options"] == "nosniff"
    ensures h["x-frame-options"] == "DENY"
    ensures h["x-xss-protection"] == "1; mode=block"
    ensures forall k | k in headers && k !in {"x-process-time", "x-content-type-options", "x-frame-options", "x-xss-protection"}
              :: h[k] == headers[k]
  {
    headers["x-process-time" := processTime]["x-content-type-options" := "nosniff"]
           ["x-frame-options" := "DENY"]["x-xss-protection" := "1; mode=block"]
  }

  /** `SecurityMiddleware`: its configured window, and the shared module-level rate limiter. */
  class SecurityMiddleware {
    const rateLimitRequests: int
    const rateLimitWindow: int
    const limiter: Security.RateLimiter

    constructor (limiter: Security.RateLimiter, rateLimitRequests: int, rateLimitWindow: int)
      ensures this.limiter == limiter
      ensures this.rateLimitRequests == rateLimitRequests && this.rateLimitWindow == rateLimitWindow
    {
      this.limiter := limiter;
      this.rateLimitRequests := rateLimitRequests;
      this.rateLimitWindow := rateLimitWindow;
    }

    /**
     * `dispatch`: a request the limiter refuses gets 429 and never reaches the
     * application; otherwise the application's response (`downstream`, or the
     * exception it raised) is returned with the security headers, or replaced
     * by a 500. `called` tells whether the application was invoked.
     */
    method Dispatch(request: Request, now: int, processTime: string, downstream: Result<Response, string>)
      returns (response: Response, called: bool)
      modifies limiter
      ensures var ip := GetClientIp(request);
        limiter.requests == old(limiter.requests)[ip :=
          var kept := Security.Recent(old(limiter.requests), ip, now - limiter.windowSeconds);
          if called then kept + [now] else kept]
      ensures called <==> Security.Admits(old(limiter.requests), GetClientIp(request), now,
                                          limiter.maxRequests, limiter.windowSeconds)
      ensures !called ==> response == Response(TooManyRequests, map[],
                  [("detail", JStr("请求过于频繁，请稍后再试")), ("retry_after", JInt(rateLimitWindow))])
      ensures called && downstream.Ok? ==>
                response == downstream.value.(headers := WithSecurityHeaders(downstream.value.headers, processTime))
      ensures called && downstream.Err? ==>
                response == Response(InternalServerError, map[], [("detail", JStr("服务器内部错误"))])
    {
      var ip := GetClientIp(request);
      var allowed := limiter.IsAllowed(ip, now);
      if !allowed {
        return Response(TooManyRequests, map[],
                        [("detail", JStr("请求过于频繁，请稍后再试")), ("retry_after", JInt(rateLimitWindow))]), false;
      }
      called := true;
      match downstream
      case Ok(r) =>
        response := r.(headers := WithSecurityHeaders(r.headers, processTime));
      case Err(_) =>
        response := Response(InternalServerError, map[], [("detail", JStr("服务器内部错误"))]);
    }
  }

  /** The outcome of `InputValidationMiddleware.dispatch` before the application runs. */
  datatype Gate =
    | Forward                 // `call_next(request)`
    | Reject(response: Response)
    | ValueError              // `int(content_length)` raised

  predicate IsBodyMethod(m: string)
  {
    m in ["POST", "PUT", "PATCH"]
  }

  /**
   * `InputValidationMiddleware.dispatch`: a `Content-Length` above 1 MiB gets
   * 413; then a body method without a JSON content type gets 415; anything
   * else goes on.
   */
  function InputValidation(request: Request): (g: Gate)
    ensures g.Reject? ==> g.response.statusCode in {PayloadTooLarge, UnsupportedMediaType}
    ensures var cl := Header(request.headers, "content-length", "");
      g.ValueError? <==> cl != "" && ParseInt(cl).None?
  {
    var contentLength := Header(request.headers, "content-length", "");
    if contentLength != "" && ParseInt(contentLength).None? then ValueError
    else if contentLength != "" && ParseInt(contentLength).value > MaxContentLength then
      Reject(Response(PayloadTooLarge, map[], [("detail", JStr("请求体过大"))]))
    else
      var contentType := Header(request.headers, "content-type", "");
      if IsBodyMethod(request.httpMethod) && !StartsWith(contentType, "application/json") then
        Reject(Response(UnsupportedMediaType, map[], [("detail", JStr("不支持的媒体类型"))]))
      else Forward
  }

  /** A request is refused as too large exactly when it declares more than 1 MiB, whatever its method or type. */
  lemma TooLargeIff(request: Request)
    ensures var cl := Header(request.headers, "content-length", "");
      (InputValidation(request).Reject? && InputValidation(request).response.statusCode == PayloadTooLarge)
      <==> (cl != "" && ParseInt(cl).Some? && ParseInt(cl).value > MaxContentLength)
  {
    var cl := Header(request.headers, "content-length", "");
    var g := InputValidation(request);
    if cl != "" && ParseInt(cl).Some? && ParseInt(cl).value > MaxContentLength {
      assert g == Reject(Response(PayloadTooLarge, map[], [("detail", JStr("请求体过大"))]));
    } else if g.Reject? {
      assert g.response.statusCode == UnsupportedMediaType;
    }
  }

  /** 415 happens exactly for a body method without a JSON content type, once the size check has passed. */
  lemma UnsupportedIff(request: Request)
    ensures var cl := Header(request.headers, "content-length", "");
      (InputValidation(request).Reject? && InputValidation(request).response.statusCode == UnsupportedMediaType)
      <==> (&& (cl == "" || (ParseInt(cl).Some? && ParseInt(cl).value <= MaxContentLength))
            && IsBodyMethod(request.httpMethod)
            && !StartsWith(Header(request.headers, "content-type", ""), "application/json"))
  {
    var cl := Header(request.headers, "content-length", "");
    var g := InputValidation(request);
    if g.Reject? && g.response.statusCode == UnsupportedMediaType {
      assert !(cl != "" && ParseInt(cl).Some? && ParseInt(cl).value > MaxContentLength);
    }
  }
}

=== FILE: models.dfy ===
/**
 * The enumerations and record shapes of `database/models.py`: plan types,
 * verification statuses, the license record and the request/response bodies
 * of the HTTP service. Timestamps are integer seconds.
 */
module Models {
  import opened Common

  /** `PlanType`: the six plans a license can be issued under. */
  datatype PlanType = Trial1 | Trial3 | Days30 | Days180 | Days365 | Lifetime

  /** Every plan, in declaration order. */
  const AllPlans: seq<PlanType> := [Trial1, Trial3, Days30, Days180, Days365, Lifetime]

  /** The string value of each plan (the code stored in the database). */
  function PlanCode(p: PlanType): string
  {
    match p
    case Trial1 => "trial1"
    case Trial3 => "trial3"
    case Days30 => "30d"
    case Days180 => "180d"
    case Days365 => "365d"
    case Lifetime => "lifetime"
  }

  /** `PlanType(code)`: the plan with that value, or `None` where Python raises `ValueError`. */
  function PlanFromCode(code: string): (r: Option<PlanType>)
    ensures r.Some? ==> PlanCode(r.value) == code
    ensures r.None? ==> forall p: PlanType :: PlanCode(p) != code
  {
    if code == "trial1" then Some(Trial1)
    else if code == "trial3" then Some(Trial3)
    else if code == "30d" then Some(Days30)
    else if code == "180d" then Some(Days180)
    else if code == "365d" then Some(Days365)
    else if code == "lifetime" then Some(Lifetime)
    else None
  }

  /** There are exactly six plans, and plan and code determine each other. */
  lemma PlanCodeBijection()
    ensures |AllPlans| == 6
    ensures forall p: PlanType :: p in AllPlans
    ensures forall i, j | 0 <= i < j < |AllPlans| :: AllPlans[i] != AllPlans[j]
    ensures forall p: PlanType :: PlanFromCode(PlanCode(p)) == Some(p)
    ensures forall p: PlanType, q: PlanType :: PlanCode(p) == PlanCode(q) ==> p == q
  {
    forall p: PlanType ensures p in AllPlans {
      match p
      case Trial1 => assert AllPlans[0] == p;
      case Trial3 => assert AllPlans[1] == p;
      case Days30 => assert AllPlans[2] == p;
      case Days180 => assert AllPlans[3] == p;
      case Days365 => assert AllPlans[4] == p;
      case Lifetime => assert AllPlans[5] == p;
    }
  }

  /** `LicenseStatus`: the four outcomes of a verification. */
  datatype LicenseStatus = Valid | Expired | Disabled | NotFound

  const AllStatuses: seq<LicenseStatus> := [Valid, Expired, Disabled, NotFound]

  function StatusCode(s: LicenseStatus): string
  {
    match s
    case Valid => "valid"
    case Expired => "expired"
    case Disabled => "disabled"
    case NotFound => "not_found"
  }

  /** There are exactly four statuses, with pairwise distinct values. */
  lemma StatusCodesDistinct()
    ensures |AllStatuses| == 4
    ensures forall s: LicenseStatus :: s in AllStatuses
    ensures forall s: LicenseStatus, t: LicenseStatus :: StatusCode(s) == StatusCode(t) ==> s == t
  {
    forall s: LicenseStatus ensures s in AllStatuses {
      match s
      case Valid => assert AllStatuses[0] == s;
      case Expired => assert AllStatuses[1] == s;
      case Disabled => assert AllStatuses[2] == s;
      case NotFound => assert AllStatuses[3] == s;
    }
  }

  /** A row of the `licenses` table (`LicenseResponse` without the audit timestamps). */
  datatype License = License(
    id: string,
    licenseKey: string,
    userEmail: Option<string>,
    planType: PlanType,
    startDate: Option<int>,
    endDate: Option<int>,
    isActive: bool)

  /** `LicenseBase(license_key=…, plan_type=…)` with every other field at its default. */
  function NewLicense(id: string, licenseKey: string, planType: PlanType): (r: License)
    ensures r.licenseKey == licenseKey && r.planType == planType
    ensures r.isActive
    ensures r.userEmail.None? && r.startDate.None? && r.endDate.None?
  {
    License(id, licenseKey, None, planType, None, None, true)
  }

  /** `LicenseUpdate`: the only fields an update carries; here `None` is read as leaving a field as it is. */
  datatype LicenseUpdate = LicenseUpdate(userEmail: Option<string>, isActive: Option<bool>)

  /** Applying an update: it can rebind the email and flip the active flag, and nothing else. */
  function ApplyUpdate(l: License, u: LicenseUpdate): (r: License)
    ensures r.id == l.id && r.licenseKey == l.licenseKey && r.planType == l.planType
    ensures r.startDate == l.startDate && r.endDate == l.endDate
    ensures r.userEmail == if u.userEmail.Some? then u.userEmail else l.userEmail
    ensures r.isActive == if u.isActive.Some? then u.isActive.value else l.isActive
  {
    l.(userEmail := if u.userEmail.Some? then u.userEmail else l.userEmail,
       isActive := if u.isActive.Some? then u.isActive.value else l.isActive)
  }

  /** `LicenseVerifyResponse`: only the status is required. */
  datatype VerifyResponse = VerifyResponse(
    status: LicenseStatus,
    planType: Option<PlanType>,
    endDate: Option<int>,
    userEmail: Option<string>,
    message: Option<string>)

  /** A verify response that sets only the status and the message. */
  function StatusResponse(status: LicenseStatus, message: string): (r: VerifyResponse)
    ensures r.status == status && r.message == Some(message)
    ensures r.planType.None? && r.endDate.None? && r.userEmail.None?
  {
    VerifyResponse(status, None, None, None, Some(message))
  }

  /** `LicenseGenerateRequest`: the plan is required, the email optional. */
  datatype GenerateRequest = GenerateRequest(planType: PlanType, userEmail: Option<string>)

  /** `LicenseGenerateResponse`. */
  datatype GenerateResponse = GenerateResponse(
    licenseKey: string,
    planType: PlanType,
    endDate: Option<int>,
    userEmail: Option<string>,
    message: string)
}

=== FILE: security.dfy ===
/**
 * The parts of `utils/security.py` that are decision logic: the sliding-window
 * `RateLimiter` and the `InputSanitizer`. Time is an integer `now` supplied by
 * the caller in place of `time.time()`.
 */
module Security {
  import opened Common
  import opened Text
  import opened KeyLayout
  import LicenseGenerator
  import Validators

  /** The limits of the module-level `rate_limiter` instance. */
  const DefaultMaxRequests: int := 100
  const DefaultWindowSeconds: int := 3600

  /** The timestamps of `ts` strictly after `windowStart`, in their original order. */
  function Pruned(ts: seq<int>, windowStart: int): (r: seq<int>)
    ensures |r| <= |ts|
  {
    if ts == [] then []
    else (if ts[0] > windowStart then [ts[0]] else []) + Pruned(ts[1..], windowStart)
  }

  /** Pruning keeps the timestamps after the window start, and only those. */
  lemma {:induction false} PrunedMembers(ts: seq<int>, windowStart: int)
    ensures forall t | t in Pruned(ts, windowStart) :: t in ts && t > windowStart
    ensures forall i | 0 <= i < |ts| :: ts[i] > windowStart ==> ts[i] in Pruned(ts, windowStart)
  {
    if ts != [] {
      PrunedMembers(ts[1..], windowStart);
      assert forall i | 1 <= i < |ts| :: ts[i] == ts[1..][i - 1];
    }
  }

  /** Pruning keeps every copy of a timestamp after the window start and no copy of any other. */
  lemma {:induction false} PrunedCount(ts: seq<int>, windowStart: int)
    ensures forall t :: multiset(Pruned(ts, windowStart))[t] == if t > windowStart then multiset(ts)[t] else 0
  {
    if ts != [] {
      PrunedCount(ts[1..], windowStart);
      var head := if ts[0] > windowStart then [ts[0]] else [];
      assert ts == [ts[0]] + ts[1..];
      assert multiset(ts) == multiset{ts[0]} + multiset(ts[1..]);
      assert multiset(Pruned(ts, windowStart)) == multiset(head) + multiset(Pruned(ts[1..], windowStart));
    }
  }

  /** Pruning at one window start and then at a later one is pruning at the later one. */
  lemma {:induction false} PrunedTwice(ts: seq<int>, w1: int, w2: int)
    requires w1 <= w2
    ensures Pruned(Pruned(ts, w1), w2) == Pruned(ts, w2)
  {
    if ts != [] {
      PrunedTwice(ts[1..], w1, w2);
      var rest := Pruned(ts[1..], w1);
      if ts[0] > w1 {
        var p := [ts[0]] + rest;
        assert Pruned(ts, w1) == p;
        assert p[0] == ts[0] && p[1..] == rest;
      } else {
        assert Pruned(ts, w1) == rest;
      }
    }
  }

  /** Pruning keeps a list whose timestamps are all in the window ... */
  lemma {:induction false} PrunedKeepsAll(ts: seq<int>, windowStart: int)
    requires forall t | t in ts :: t > windowStart
    ensures Pruned(ts, windowStart) == ts
  {
    if ts != [] {
      assert ts[0] in ts;
      assert forall t | t in ts[1..] :: t in ts;
      PrunedKeepsAll(ts[1..], windowStart);
      assert ts == [ts[0]] + ts[1..];
    }
  }

  /** ... and empties one whose timestamps are all at or before the window start. */
  lemma {:induction false} PrunedDropsAll(ts: seq<int>, windowStart: int)
    requires forall t | t in ts :: t <= windowStart
    ensures Pruned(ts, windowStart) == []
  {
    if ts != [] {
      assert ts[0] in ts;
      assert forall t | t in ts[1..] :: t in ts;
      PrunedDropsAll(ts[1..], windowStart);
    }
  }

  /** The stored requests of `ip` that fall in the window; none for an unseen address. */
  function Recent(requests: map<string, seq<int>>, ip: string, windowStart: int): (r: seq<int>)
    ensures forall t | t in r :: t > windowStart
    ensures ip !in requests ==> r == []
  {
    if ip in requests then
      PrunedMembers(requests[ip], windowStart);
      Pruned(requests[ip], windowStart)
    else []
  }

  /** Whether a request from `ip` at `now` is admitted, on the stored state `requests`. */
  predicate Admits(requests: map<string, seq<int>>, ip: string, now: int, maxRequests: int, windowSeconds: int)
  {
    |Recent(requests, ip, now - windowSeconds)| < maxRequests
  }

  /**
   * A refused request leaves no trace that matters later: the list it leaves
   * behind prunes, at any later time, to what the old list prunes to.
   */
  lemma RefusalLeavesNoTrace(requests: map<string, seq<int>>, ip: string, w1: int, w2: int)
    requires w1 <= w2
    ensures Recent(requests[ip := Recent(requests, ip, w1)], ip, w2) == Recent(requests, ip, w2)
  {
    if ip in requests {
      PrunedTwice(requests[ip], w1, w2);
    }
  }

  /** `RateLimiter`: a map from client address to the timestamps of its admitted requests. */
  class RateLimiter {
    const maxRequests: int
    const windowSeconds: int
    var requests: map<string, seq<int>>

    /** No address ever holds more than `max_requests` timestamps. */
    predicate Valid()
      reads this
    {
      forall ip | ip in requests :: |requests[ip]| <= Max(maxRequests, 0)
    }

    constructor (maxRequests: int, windowSeconds: int)
      ensures this.maxRequests == maxRequests && this.windowSeconds == windowSeconds
      ensures requests == map[]
      ensures Valid()
    {
      this.maxRequests := maxRequests;
      this.windowSeconds := windowSeconds;
      requests := map[];
    }

    /**
     * `is_allowed(ip)`: drop the timestamps of `ip` at or before `now - window_seconds`
     * (creating an empty list for a new address), refuse when `max_requests` remain,
     * otherwise record `now` and admit.
     */
    method IsAllowed(ip: string, now: int) returns (allowed: bool)
      modifies this
      ensures allowed <==> Admits(old(requests), ip, now, maxRequests, windowSeconds)
      ensures requests == old(requests)[ip := if allowed then Recent(old(requests), ip, now - windowSeconds) + [now]
                                               else Recent(old(requests), ip, now - windowSeconds)]
      ensures windowSeconds > 0 ==> forall t | t in requests[ip] :: t > now - windowSeconds
      ensures old(Valid()) ==> Valid()
    {
      var windowStart := now - windowSeconds;
      if ip in requests {
        requests := requests[ip := Pruned(requests[ip], windowStart)];
      } else {
        requests := requests[ip := []];
      }
      if |requests[ip]| >= maxRequests {
        return false;
      }
      requests := requests[ip := requests[ip] + [now]];
      return true;
    }

    /**
     * `get_remaining_requests(ip)`: how many more requests the window admits,
     * reading the state without pruning it.
     */
    method GetRemainingRequests(ip: string, now: int) returns (remaining: int)
      ensures ip !in requests ==> remaining == maxRequests
      ensures ip in requests ==> remaining == Max(0, maxRequests - |Pruned(requests[ip], now - windowSeconds)|)
      ensures maxRequests >= 0 ==> 0 <= remaining <= maxRequests
      ensures remaining > 0 <==> Admits(requests, ip, now, maxRequests, windowSeconds)
    {
      var windowStart := now - windowSeconds;
      if ip in requests {
        var valid := Pruned(requests[ip], windowStart);
        return Max(0, maxRequests - |valid|);
      }
      return maxRequests;
    }
  }

  /**
   * With a limit of 3 in a window of 10 seconds, three requests from one
   * address at the same instant `t` are admitted and a fourth, 5 seconds
   * later, is refused.
   */
  method LimitExample(ip: string, t: int) returns (first: bool, second: bool, third: bool, fourth: bool)
    ensures first && second && third
    ensures !fourth
  {
    var limiter := new RateLimiter(3, 10);
    first := limiter.IsAllowed(ip, t);
    assert limiter.requests[ip] == [t];
    PrunedKeepsAll([t], t - 10);
    second := limiter.IsAllowed(ip, t);
    assert limiter.requests[ip] == [t, t];
    PrunedKeepsAll([t, t], t - 10);
    third := limiter.IsAllowed(ip, t);
    assert limiter.requests[ip] == [t, t, t];
    PrunedKeepsAll([t, t, t], t - 5);
    fourth := limiter.IsAllowed(ip, t + 5);
  }

  /**
   * The window boundary is exclusive: with three requests stored at time `t`,
   * a request at `t + 9` is refused, and one at `t + 10` is admitted because
   * timestamps equal to the window start are dropped.
   */
  method BoundaryExample(ip: string, t: int) returns (atNine: bool, atTen: bool)
    ensures !atNine
    ensures atTen
  {
    var limiter := new RateLimiter(3, 10);
    limiter.requests := map[ip := [t, t, t]];
    PrunedKeepsAll([t, t, t], t - 1);
    atNine := limiter.IsAllowed(ip, t + 9);
    assert limiter.requests[ip] == [t, t, t];
    PrunedDropsAll([t, t, t], t);
    atTen := limiter.IsAllowed(ip, t + 10);
  }

  /** The module-level `rate_limiter`: a fresh one grants every address its full 100 requests. */
  method DefaultLimiterRemaining(ip: string, now: int) returns (remaining: int)
    ensures remaining == DefaultMaxRequests == 100
  {
    var limiter := new RateLimiter(DefaultMaxRequests, DefaultWindowSeconds);
    remaining := limiter.GetRemainingRequests(ip, now);
  }

  /** The 13 characters `sanitize_string` deletes: those of `sanitize_input`, then `\` and `/`. */
  const StringDangerousChars: seq<char> := Validators.InputDangerousChars + ['\\', '/']

  /** `InputSanitizer.sanitize_string(text, max_length)`. */
  method SanitizeString(text: string, maxLength: int) returns (r: string)
    ensures r == Validators.Sanitized(text, maxLength, StringDangerousChars)
  {
    r := Validators.Sanitize(text, maxLength, StringDangerousChars);
  }

  /**
   * The two sanitisers agree up to the two extra characters: `sanitize_string`
   * is `sanitize_input` followed by deleting `\` and `/`.
   */
  lemma SanitizeStringAfterInput(text: string, maxLength: int)
    ensures Validators.Sanitized(text, maxLength, StringDangerousChars)
         == Without(Without(Validators.Sanitized(text, maxLength, Validators.InputDangerousChars), ['\\']), ['/'])
  {
    if text != "" {
      var cut := Validators.Truncated(Strip(text), maxLength);
      var d := Validators.InputDangerousChars;
      WithoutStep(cut, d, '\\');
      WithoutStep(cut, d + ['\\'], '/');
      assert d + ['\\'] + ['/'] == StringDangerousChars;
    } else {
      assert Without([], ['\\']) == [];
    }
  }

  /** The alphabet `InputSanitizer.validate_license_key_format` spells out. */
  const KeyChars: string := "ABCDEFGHJKLMNPQRSTUVWXYZ23456789"

  /**
   * `InputSanitizer.validate_license_key_format`: non-empty, exactly 19
   * characters, then the split rule over `KeyChars`.
   */
  predicate ValidateLicenseKeyFormat(key: string)
  {
    && key != ""
    && |key| == 19
    && SplitsIntoGroups(key, KeyChars)
  }

  /** The length check is redundant: the split rule alone fixes the length at 19. */
  lemma LengthCheckRedundant(key: string)
    ensures ValidateLicenseKeyFormat(key) <==> SplitsIntoGroups(key, KeyChars)
  {
    assert KeyChars == LicenseGenerator.Alphabet;
    if SplitsIntoGroups(key, KeyChars) {
      LicenseGenerator.AcceptedLayout(key);
    }
  }

  /** This validator and the codec's accept exactly the same strings. */
  lemma SameLanguageAsCodec(key: string)
    ensures ValidateLicenseKeyFormat(key) <==> LicenseGenerator.ValidateLicenseKeyFormat(key)
  {
    LengthCheckRedundant(key);
  }
}

=== FILE: text.dfy ===
/**
 * The handful of Python `str` operations the license code relies on:
 * `split` on a one-character separator, `sep.join`, `strip()`, the prefix
 * slice `s[:n]`, `replace(c, '')`, `startswith`, and `int()` on a header value.
 */
module Text {
  import opened Common

  /** The position of the first `d` in `s`, or `|s|` when there is none. */
  function IndexOf(s: string, d: char): (i: nat)
    ensures i <= |s|
    ensures i < |s| ==> s[i] == d
    ensures forall j :: 0 <= j < i ==> s[j] != d
  {
    if s == [] then 0 else if s[0] == d then 0 else 1 + IndexOf(s[1..], d)
  }

  /** Python `s.split(sep)` for a one-character separator: never empty, and `"".split(sep) == [""]`. */
  function Split(s: string, sep: char): (parts: seq<string>)
    ensures |parts| >= 1
    ensures forall p | p in parts :: sep !in p
    ensures parts[0] == s[..IndexOf(s, sep)]
    decreases |s|
  {
    var i := IndexOf(s, sep);
    if i == |s| then [s] else [s[..i]] + Split(s[i + 1..], sep)
  }

  /** Python `sep.join(parts)`. */
  function Join(parts: seq<string>, sep: char): string
  {
    if |parts| == 0 then ""
    else if |parts| == 1 then parts[0]
    else parts[0] + [sep] + Join(parts[1..], sep)
  }

  /** Joining a head part onto at least one more part puts the separator between them. */
  lemma JoinCons(p: string, tail: seq<string>, sep: char)
    requires |tail| >= 1
    ensures Join([p] + tail, sep) == p + [sep] + Join(tail, sep)
  {
    assert ([p] + tail)[1..] == tail;
  }

  /** Splitting loses nothing: joining the parts back gives the original string. */
  lemma {:induction false} JoinSplit(s: string, sep: char)
    ensures Join(Split(s, sep), sep) == s
    decreases |s|
  {
    var i := IndexOf(s, sep);
    if i < |s| {
      var head, rest := s[..i], s[i + 1..];
      var tail := Split(rest, sep);
      assert Split(s, sep) == [head] + tail;
      JoinCons(head, tail, sep);
      JoinSplit(rest, sep);
      assert s == head + [sep] + rest;
    }
  }

  /** A string without the separator has no first separator. */
  lemma IndexOfAbsent(s: string, sep: char)
    requires sep !in s
    ensures IndexOf(s, sep) == |s|
  {
  }

  /** The first separator of `p + [sep] + rest` is the one after `p`, when `p` has none. */
  lemma {:induction false} IndexOfAfter(p: string, rest: string, sep: char)
    requires sep !in p
    ensures IndexOf(p + [sep] + rest, sep) == |p|
  {
    var s := p + [sep] + rest;
    if p != [] {
      assert p[0] in p;
      assert s[0] == p[0] && s[1..] == p[1..] + [sep] + rest;
      IndexOfAfter(p[1..], rest, sep);
    }
  }

  /** Joining parts that do not contain the separator, then splitting, gives the parts back. */
  lemma {:induction false} SplitJoin(parts: seq<string>, sep: char)
    requires |parts| >= 1
    requires forall p | p in parts :: sep !in p
    ensures Split(Join(parts, sep), sep) == parts
  {
    var p0 := parts[0];
    assert p0 in parts;
    if |parts| == 1 {
      IndexOfAbsent(p0, sep);
      assert Split(p0, sep) == [p0];
    } else {
      var tail := parts[1..];
      assert parts == [p0] + tail;
      JoinCons(p0, tail, sep);
      var rest := Join(tail, sep);
      var s := p0 + [sep] + rest;
      IndexOfAfter(p0, rest, sep);
      assert s[..|p0|] == p0 && s[|p0| + 1..] == rest;
      assert Split(s, sep) == [p0] + Split(rest, sep);
      assert forall p | p in tail :: p in parts;
      SplitJoin(tail, sep);
    }
  }

  /** The characters Python's `str.isspace()` accepts (and so `str.strip()` removes). */
  predicate IsSpace(c: char)
  {
    || '\t' <= c <= '\r'
    || '\U{1C}' <= c <= '\U{1F}'
    || c == ' '
    || c == '\U{85}'
    || c == '\U{A0}'
    || c == '\U{1680}'
    || '\U{2000}' <= c <= '\U{200A}'
    || c == '\U{2028}'
    || c == '\U{2029}'
    || c == '\U{202F}'
    || c == '\U{205F}'
    || c == '\U{3000}'
  }

  /** `s` with its leading whitespace removed. */
  function StripStart(s: string): (r: string)
    ensures |r| <= |s| && r == s[|s| - |r|..]
    ensures forall i :: 0 <= i < |s| - |r| ==> IsSpace(s[i])
    ensures r != [] ==> !IsSpace(r[0])
  {
    if s != [] && IsSpace(s[0]) then StripStart(s[1..]) else s
  }

  /** `s` with its trailing whitespace removed. */
  function StripEnd(s: string): (r: string)
    ensures |r| <= |s| && r == s[..|r|]
    ensures forall i :: |r| <= i < |s| ==> IsSpace(s[i])
    ensures r != [] ==> !IsSpace(r[|r| - 1])
  {
    if s != [] && IsSpace(s[|s| - 1]) then StripEnd(s[..|s| - 1]) else s
  }

  /** Python `s.strip()`: neither end of the result is whitespace, and only whitespace was removed. */
  function Strip(s: string): (r: string)
    ensures |r| <= |s|
    ensures r != [] ==> !IsSpace(r[0]) && !IsSpace(r[|r| - 1])
  {
    StripEnd(StripStart(s))
  }

  /** The stripped string is a slice of `s` with only whitespace before it and after it. */
  lemma StripTrimsSpace(s: string)
    ensures exists i, j | 0 <= i <= j <= |s| ::
              && Strip(s) == s[i..j]
              && (forall k | 0 <= k < i :: IsSpace(s[k]))
              && (forall k | j <= k < |s| :: IsSpace(s[k]))
  {
    var a := StripStart(s);
    var r := StripEnd(a);
    var i := |s| - |a|;
    var j := i + |r|;
    assert Strip(s) == s[i..j] by {
      assert a == s[i..] && r == a[..|r|];
    }
    assert forall k | j <= k < |s| :: IsSpace(s[k]) by {
      forall k | j <= k < |s| ensures IsSpace(s[k]) {
        assert s[k] == a[k - i];
      }
    }
  }

  /** A string with no whitespace at either end is its own strip. */
  lemma StripUnpadded(s: string)
    requires s != [] && !IsSpace(s[0]) && !IsSpace(s[|s| - 1])
    ensures Strip(s) == s
  {
    assert StripStart(s) == s;
  }

  /** Stripping keeps a contiguous piece of the string. */
  lemma StripInside(s: string)
    ensures forall c | c in Strip(s) :: c in s
  {
    var a := StripStart(s);
    assert forall c | c in a :: c in s;
  }

  /** Python `s[:n]`, including a negative `n`, which counts from the end. */
  function Prefix(s: string, n: int): (r: string)
    ensures |r| <= |s| && r == s[..|r|]
    ensures n >= 0 ==> |r| == Min(n, |s|)
    ensures n < 0 ==> |r| == Max(0, |s| + n)
  {
    if n >= 0 then (if n <= |s| then s[..n] else s)
    else if |s| + n >= 0 then s[..|s| + n]
    else ""
  }

  /** The characters of `s` that are not in `ds`, in order. */
  function Without(s: string, ds: seq<char>): (r: string)
    ensures |r| <= |s|
    ensures forall c | c in r :: c in s && c !in ds
    ensures forall i | 0 <= i < |s| :: s[i] !in ds ==> s[i] in r
  {
    if s == [] then []
    else (if s[0] in ds then [] else [s[0]]) + Without(s[1..], ds)
  }

  /** `a` is `b` with some characters deleted. */
  predicate IsSubsequence(a: string, b: string)
    decreases |b|
  {
    if a == [] then true
    else if b == [] then false
    else if a[0] == b[0] then IsSubsequence(a[1..], b[1..])
    else IsSubsequence(a, b[1..])
  }

  lemma {:induction false} WithoutIsSubsequence(s: string, ds: seq<char>)
    ensures IsSubsequence(Without(s, ds), s)
  {
    if s != [] {
      WithoutIsSubsequence(s[1..], ds);
      if s[0] !in ds {
        assert Without(s, ds) == [s[0]] + Without(s[1..], ds);
        assert Without(s, ds)[1..] == Without(s[1..], ds);
      } else {
        assert Without(s, ds) == Without(s[1..], ds);
      }
    }
  }

  lemma {:induction false} WithoutNothing(s: string)
    ensures Without(s, []) == s
  {
    if s != [] {
      WithoutNothing(s[1..]);
    }
  }

  /** Deleting keeps every copy of a character outside `ds` and no copy of one inside it. */
  lemma {:induction false} WithoutCount(s: string, ds: seq<char>)
    ensures forall c :: multiset(Without(s, ds))[c] == if c in ds then 0 else multiset(s)[c]
  {
    if s != [] {
      WithoutCount(s[1..], ds);
      var head := if s[0] in ds then [] else [s[0]];
      assert s == [s[0]] + s[1..];
      assert multiset(s) == multiset{s[0]} + multiset(s[1..]);
      assert multiset(Without(s, ds)) == multiset(head) + multiset(Without(s[1..], ds));
    }
  }

  /** Removing one more character after a batch equals removing the extended batch at once. */
  lemma {:induction false} WithoutStep(s: string, ds: seq<char>, c: char)
    ensures Without(Without(s, ds), [c]) == Without(s, ds + [c])
  {
    if s != [] {
      WithoutStep(s[1..], ds, c);
      var rest := Without(s[1..], ds);
      assert (s[0] in ds + [c]) == (s[0] in ds || s[0] == c);
      if s[0] in ds {
        assert Without(s, ds) == rest;
      } else {
        var w := [s[0]] + rest;
        assert Without(s, ds) == w;
        assert w[1..] == rest;
        assert Without(w, [c]) == (if s[0] in [c] then [] else [s[0]]) + Without(rest, [c]);
      }
    }
  }

  /** The `n` consecutive characters from `lo` on, as a regex class such as `[A-Z]` denotes them. */
  function CharRange(lo: char, n: nat): (r: string)
    requires lo as int + n < 0xD800
    ensures |r| == n
    decreases n
  {
    if n == 0 then [] else [lo] + CharRange((lo as int + 1) as char, n - 1)
  }

  /** A character is in the range exactly when its code lies between the bounds. */
  lemma {:induction false} CharRangeMembers(lo: char, n: nat)
    requires lo as int + n < 0xD800
    ensures forall c :: c in CharRange(lo, n) <==> lo as int <= c as int < lo as int + n
    decreases n
  {
    if n > 0 {
      CharRangeMembers((lo as int + 1) as char, n - 1);
    }
  }

  /** Python `s.startswith(prefix)`. */
  predicate StartsWith(s: string, prefix: string)
  {
    |prefix| <= |s| && s[..|prefix|] == prefix
  }

  predicate IsDigit(c: char) { '0' <= c <= '9' }

  /** A non-empty run of ASCII digits. */
  predicate IsDigits(s: string)
  {
    s != [] && forall i | 0 <= i < |s| :: IsDigit(s[i])
  }

  /** The value of a run of ASCII digits. */
  function DigitsValue(s: string): (n: nat)
    requires forall i | 0 <= i < |s| :: IsDigit(s[i])
  {
    if s == [] then 0
    else
      assert IsDigit(s[|s| - 1]);
      DigitsValue(s[..|s| - 1]) * 10 + (s[|s| - 1] as int - '0' as int)
  }

  /** The length of the optional `+` or `-` that opens `t`. */
  function SignLength(t: string): nat
  {
    if t != [] && (t[0] == '+' || t[0] == '-') then 1 else 0
  }

  /**
   * Python `int(s)` on a header value: surrounding whitespace, an optional sign,
   * then at least one ASCII digit; anything else raises `ValueError` (here `None`).
   */
  function ParseInt(s: string): (r: Option<int>)
    ensures r.Some? ==> Strip(s) != ""
    ensures r.Some? <==> IsDigits(Strip(s)[SignLength(Strip(s))..])
    ensures r.Some? ==>
              var t := Strip(s);
              var magnitude: int := DigitsValue(t[SignLength(t)..]);
              r.value == if t[0] == '-' then -magnitude else magnitude
  {
    var t := Strip(s);
    var sign := SignLength(t);
    var digits := t[sign..];
    if IsDigits(digits) then
      var value: int := DigitsValue(digits);
      Some(if sign == 1 && t[0] == '-' then -value else value)
    else None
  }

  /** A run of digits parses to its value. */
  lemma ParseIntDigits(d: string)
    requires IsDigits(d)
    ensures ParseInt(d) == Some(DigitsValue(d))
  {
    assert d[0..] == d;
    assert Strip(d) == d by {
      assert IsDigit(d[0]) && IsDigit(d[|d| - 1]);
      StripUnpadded(d);
    }
    ParseIntStripped(d, d, 0);
  }

  /** A run of digits after a `+` or a `-` parses to its value with that sign. */
  lemma ParseIntSigned(sign: char, d: string)
    requires sign == '+' || sign == '-'
    requires IsDigits(d)
    ensures ParseInt([sign] + d) == Some(if sign == '-' then -(DigitsValue(d) as int) else DigitsValue(d))
  {
    var t := [sign] + d;
    assert t[1..] == d;
    assert Strip(t) == t by {
      assert t[0] == sign && t[|t| - 1] == d[|d| - 1];
      assert IsDigit(d[|d| - 1]);
      StripUnpadded(t);
    }
    ParseIntStripped(t, d, 1);
  }

  /** `ParseInt` on a string whose strip is `t`, a sign of length `n` followed by digits `d`. */
  lemma ParseIntStripped(s: string, d: string, n: nat)
    requires n <= |Strip(s)| && SignLength(Strip(s)) == n && Strip(s)[n..] == d
    requires IsDigits(d)
    ensures ParseInt(s) == Some(if n == 1 && Strip(s)[0] == '-' then -(DigitsValue(d) as int) else DigitsValue(d))
  {
  }
}

=== FILE: validators.dfy ===
/**
 * `utils/validators.py`: the regular-expression key validator used by the
 * HTTP verify endpoint, the input sanitiser and the plan-type check.
 */
module Validators {
  import opened Common
  import opened Text
  import opened KeyLayout
  import LicenseGenerator
  import Models

  /** The class `[A-Z0-9]` of the key regex: the 26 upper-case letters, then the 10 digits. */
  const UpperAlnum: string := CharRange('A', 26) + CharRange('0', 10)

  lemma UpperAlnumFacts()
    ensures forall c :: c in UpperAlnum <==> ('A' <= c <= 'Z' || '0' <= c <= '9')
    ensures '-' !in UpperAlnum
  {
    CharRangeMembers('A', 26);
    CharRangeMembers('0', 10);
  }

  /**
   * `validate_license_key_format`: `re.match(r'^[A-Z0-9]{4}-[A-Z0-9]{4}-[A-Z0-9]{4}-[A-Z0-9]{4}$', key)`
   * on a non-empty key. `re.match` anchors at the start; Python's `$` matches at
   * the end of the string or just before a final newline.
   */
  predicate ValidateLicenseKeyFormat(key: string)
  {
    && key != ""
    && |key| >= 19
    && Layout(key[..19], UpperAlnum)
    && (key[19..] == "" || key[19..] == "\n")
  }

  /** The regex validator rejects the empty string. */
  lemma RejectsEmpty()
    ensures !ValidateLicenseKeyFormat("")
  {
  }

  /** Every key the 32-symbol codec accepts, the regex accepts too. */
  lemma CodecImpliesRegex(s: string)
    requires LicenseGenerator.ValidateLicenseKeyFormat(s)
    ensures ValidateLicenseKeyFormat(s)
  {
    LicenseGenerator.ValidateIffShape(s);
    LicenseGenerator.AlphabetFacts();
    UpperAlnumFacts();
    assert s[..19] == s;
    LayoutWiden(s, LicenseGenerator.Alphabet, UpperAlnum);
  }

  /** The converse fails: the regex admits `0`, `1`, `I` and `O` ... */
  lemma RegexAdmitsLookAlikes()
    ensures ValidateLicenseKeyFormat("0000-0000-0000-0000")
    ensures !LicenseGenerator.ValidateLicenseKeyFormat("0000-0000-0000-0000")
  {
    var zeros := "0000-0000-0000-0000";
    UpperAlnumFacts();
    forall i | 0 <= i < 19
      ensures if IsSeparatorIndex(i) then zeros[i] == '-' else zeros[i] in UpperAlnum
    {
    }
    assert Layout(zeros, UpperAlnum);
    assert zeros[..19] == zeros && zeros[19..] == "";
    LicenseGenerator.ValidateIffShape(zeros);
    LicenseGenerator.AlphabetFacts();
    assert zeros[0] !in LicenseGenerator.Alphabet;
  }

  /** ... and one trailing newline, which `$` lets through. */
  lemma RegexAdmitsTrailingNewline()
    ensures ValidateLicenseKeyFormat("ABCD-EFGH-JKLM-NPQR\n")
    ensures !LicenseGenerator.ValidateLicenseKeyFormat("ABCD-EFGH-JKLM-NPQR\n")
  {
    var body := "ABCD-EFGH-JKLM-NPQR";
    var nl := body + "\n";
    assert nl == "ABCD-EFGH-JKLM-NPQR\n";
    UpperAlnumFacts();
    forall i | 0 <= i < 19
      ensures if IsSeparatorIndex(i) then body[i] == '-' else body[i] in UpperAlnum
    {
    }
    assert Layout(body, UpperAlnum);
    assert nl[..19] == body && nl[19..] == "\n";
    assert |nl| == 20;
    LicenseGenerator.ValidateIffShape(nl);
  }

  /** The characters that tell the two languages apart. */
  predicate IsLookAlike(c: char)
  {
    c == '0' || c == '1' || c == 'I' || c == 'O'
  }

  /** Symbol classes described by those two ranges differ exactly by the look-alikes. */
  lemma ClassesDifferByLookAlikes(alpha: string, beta: string)
    requires forall c :: c in alpha <==> LicenseGenerator.IsKeyChar(c)
    requires forall c :: c in beta <==> ('A' <= c <= 'Z' || '0' <= c <= '9')
    ensures forall c :: c in alpha <==> c in beta && !IsLookAlike(c)
  {
  }

  /** The codec alphabet is the regex class without the look-alikes. */
  lemma KeyCharIff()
    ensures forall c :: c in LicenseGenerator.Alphabet <==> c in UpperAlnum && !IsLookAlike(c)
  {
    LicenseGenerator.AlphabetExact();
    UpperAlnumFacts();
    ClassesDifferByLookAlikes(LicenseGenerator.Alphabet, UpperAlnum);
  }

  lemma CodecToRegex(s: string)
    requires LicenseGenerator.ValidateLicenseKeyFormat(s)
    ensures ValidateLicenseKeyFormat(s) && |s| == 19 && forall i | 0 <= i < |s| :: !IsLookAlike(s[i])
  {
    CodecImpliesRegex(s);
    LicenseGenerator.ValidateIffShape(s);
    KeyCharIff();
    forall i | 0 <= i < |s|
      ensures !IsLookAlike(s[i])
    {
      if !IsSeparatorIndex(i) {
        assert s[i] in LicenseGenerator.Alphabet;
      }
    }
  }

  lemma RegexToCodec(s: string)
    requires ValidateLicenseKeyFormat(s) && |s| == 19 && forall i | 0 <= i < |s| :: !IsLookAlike(s[i])
    ensures LicenseGenerator.ValidateLicenseKeyFormat(s)
  {
    assert s[..19] == s;
    KeyCharIff();
    forall i | 0 <= i < 19 && !IsSeparatorIndex(i)
      ensures s[i] in LicenseGenerator.Alphabet
    {
      assert s[i] in UpperAlnum && !IsLookAlike(s[i]);
    }
    assert LicenseGenerator.KeyShape(s);
    LicenseGenerator.ValidateIffShape(s);
  }

  /**
   * Exactly what the codec adds to the regex: no trailing newline and none of
   * the four look-alike characters. Both directions.
   */
  lemma CodecIffRegexWithoutLookAlikes(s: string)
    ensures LicenseGenerator.ValidateLicenseKeyFormat(s)
        <==> ValidateLicenseKeyFormat(s) && |s| == 19 && forall i | 0 <= i < |s| :: !IsLookAlike(s[i])
  {
    if LicenseGenerator.ValidateLicenseKeyFormat(s) {
      CodecToRegex(s);
    }
    if ValidateLicenseKeyFormat(s) && |s| == 19 && forall i | 0 <= i < |s| :: !IsLookAlike(s[i]) {
      RegexToCodec(s);
    }
  }

  /** The 11 characters `sanitize_input` deletes. */
  const InputDangerousChars: seq<char> := ['<', '>', '"', '\'', '&', ';', '(', ')', '|', '`', '$']

  /** `text[:max_length]` when the text is longer than `max_length`, the text otherwise. */
  function Truncated(t: string, maxLength: int): string
  {
    if |t| > maxLength then Prefix(t, maxLength) else t
  }

  /** Cutting never lengthens, and gives at most `maxLength` characters when that is not negative. */
  lemma TruncatedBound(t: string, maxLength: int)
    ensures |Truncated(t, maxLength)| <= |t|
    ensures maxLength >= 0 ==> |Truncated(t, maxLength)| <= maxLength
    ensures Truncated(t, maxLength) == t[..|Truncated(t, maxLength)|]
  {
  }

  /**
   * The clean-up both sanitisers share: empty input gives `""`; otherwise strip,
   * cut to `max_length`, then delete the dangerous characters. The result is
   * short enough, holds no dangerous character, and is the cut text with exactly
   * the dangerous characters deleted: every other character keeps all its copies.
   */
  function Sanitized(text: string, maxLength: int, dangerous: seq<char>): (r: string)
    ensures text == "" ==> r == ""
    ensures maxLength >= 0 ==> |r| <= maxLength
    ensures forall c | c in dangerous :: c !in r
    ensures forall c | c in r :: c in text
    ensures IsSubsequence(r, Truncated(Strip(text), maxLength))
    ensures text != "" ==>
              forall c | c !in dangerous :: multiset(r)[c] == multiset(Truncated(Strip(text), maxLength))[c]
  {
    if text == "" then ""
    else
      var cut := Truncated(Strip(text), maxLength);
      TruncatedBound(Strip(text), maxLength);
      StripInside(text);
      WithoutIsSubsequence(cut, dangerous);
      WithoutCount(cut, dangerous);
      Without(cut, dangerous)
  }

  /**
   * The loop of the source: strip, cut, then `text.replace(c, '')` for each
   * dangerous character in turn. Deleting one character at a time ends where
   * deleting them all at once does.
   */
  method Sanitize(text: string, maxLength: int, dangerous: seq<char>) returns (r: string)
    ensures r == Sanitized(text, maxLength, dangerous)
  {
    if text == "" {
      return "";
    }
    var cut := Strip(text);
    if |cut| > maxLength {
      cut := Prefix(cut, maxLength);  // text[:max_length]
    }
    var t := cut;
    WithoutNothing(cut);
    for k := 0 to |dangerous|
      invariant t == Without(cut, dangerous[..k])
    {
      WithoutStep(cut, dangerous[..k], dangerous[k]);
      assert dangerous[..k + 1] == dangerous[..k] + [dangerous[k]];
      t := Without(t, [dangerous[k]]);  // text.replace(char, '')
    }
    assert dangerous[..|dangerous|] == dangerous;
    r := t;
    assert r == Without(Truncated(Strip(text), maxLength), dangerous);
  }

  /** `sanitize_input(text, max_length)` (callers default `max_length` to 255). */
  method SanitizeInput(text: string, maxLength: int) returns (r: string)
    ensures r == Sanitized(text, maxLength, InputDangerousChars)
  {
    r := Sanitize(text, maxLength, InputDangerousChars);
  }

  /** `validate_plan_type`: the code is one of the six plan values. */
  predicate ValidatePlanType(planType: string)
  {
    planType in ["trial1", "trial3", "30d", "180d", "365d", "lifetime"]
  }

  /** The accepted codes are exactly the values of `PlanType`. */
  lemma ValidatePlanTypeIffPlanCode(code: string)
    ensures ValidatePlanType(code) <==> exists p: Models.PlanType :: Models.PlanCode(p) == code
    ensures ValidatePlanType(code) <==> Models.PlanFromCode(code).Some?
  {
    if ValidatePlanType(code) {
      assert Models.PlanCode(Models.PlanFromCode(code).value) == code;
    }
  }
}
